=== FILE: README.md ===
# Farm2Hand core, modelled in Dafny

This project models Farm2Hand's front-end logic, a Thai farm-to-table marketplace, as Dafny datatypes and pure functions, and proves properties about them. It covers four pieces.

- **The chatbot's shopping panel** (`src/components/RecommendedQuestions.tsx`).
  - The state has five independent `show*` flags, the selected category and the selected payment method. The handlers move between them.
  - The rendered view is derived from the flags by the component's chain of `if` statements.
  - The cart ledger has update, remove, add, subtotal and total with a flat 50-baht shipping fee.
  - The static tables the panel renders from: questions, categories, curated and featured products, payment methods, orders and the starting cart.
  - Modules: `Navigator`, `Cart` and `ChatCatalog`.
- **The product service's pure parts** (`src/services/productService.ts`).
  - Conversion between table rows and product records: null defaults, the rating in tenths, the discount and tag encodings.
  - The update payload, and the ownership guard of update and delete.
  - The distinct-category list, and the counted, styled and ordered category summary.
  - Modules: `ProductRecords` and `CategoryStats`.
- **The products page** (`src/pages/ProductsPage.tsx`).
  - The search / filter / sort pipeline its effect recomputes.
  - `resetFilters`.
  - The favourites list.
  - Module: `ProductFilter`.
- **Authentication** (`src/contexts/AuthContext.tsx`).
  - The five-action reducer and its initial state.
  - The ordered validation of `login` and `register`.
  - The profile merge of `updateProfile`.
  - Module: `Auth`.

Four support modules hold JavaScript behaviour the others rely on:

- `Wrappers`: `Option` and `Result`.
- `Text`: `includes`, ASCII `toLowerCase`, code-point string order, `split`/`join` and `trim` with ECMAScript white space.
- `Sorting`: a stable insertion sort over a "may come first" comparator, the behaviour of `Array.prototype.sort`.
- `Lists`: `filter`.

## How the panel is modelled

The panel state keeps the five booleans exactly as the component does. The at-most-one-panel property is proved, not assumed.

`Navigator.Enabled` says which controls the current view renders. `Navigator.ValidTrace` restricts runs to those controls. `Navigator.ReachableAtMostOnePanel` then shows that every state reached from the initial one has at most one flag set and never shows order tracking.

The three cart ledger operations (`updateQuantity`, `removeFromCart`, `addToCart`) are defined in the component, but no rendered control calls them. The model lets them fire in every view. This over-approximates what can happen, so the invariant still holds over the real runs.

A handler's outbound message to the chat (`onQuestionClick`) and its `alert` are returned as an `Effect` beside the new state.

## Behaviour of the panel worth knowing

- `handleConfirmOrder` (src/components/RecommendedQuestions.tsx:334-341) clears only `showOrderSummary`. The chosen payment method and the cart survive a confirmation (`Navigator.HandleConfirmOrder`, `Navigator.ConfirmThenReorderKeepsSelection`).
- `handleCategoryProductClick` (src/components/RecommendedQuestions.tsx:329-332) closes the category-products view but keeps `selectedCategory` (`Navigator.HandleCategoryProductClick`).
- The order-tracking view cannot be reached.
  - `handleQuestionClick` sets `showOrderTracking` for the text 'ติดตามออเดอร์' (src/components/RecommendedQuestions.tsx:288-289).
  - The menu renders only `questions.slice(0, 4)` (src/components/RecommendedQuestions.tsx:823), which leaves that question out.
  - Nothing else sets the flag (`ChatCatalog.MenuOmitsTracking`, `Navigator.ReachableAtMostOnePanel`).
- `updateQuantity`, `removeFromCart` and `addToCart` (src/components/RecommendedQuestions.tsx:348-371) are defined but called by no rendered control. The model enables them everywhere, as described above.

## Representation choices

- Ratings are integers in tenths of a star. Rows store them that way, and `convertToProduct`'s division by 10 is not performed.
- Prices, quantities, stock, discounts and the page's price range are unbounded integers. JavaScript numbers may be fractional, and sums beyond 2^53 lose precision. Neither fractional values nor the floating-point rounding of the subtotal is modelled.
- `localeCompare` is code-point lexicographic order (`Text.LexLe`).
- `toLowerCase` lowers ASCII letters only. Thai has no case.
- Dafny's `char` is a Unicode scalar value, whereas JavaScript counts UTF-16 code units. The two lengths agree on the Basic Multilingual Plane, which includes all Thai text. The six-character password rule is stated on scalar values.
- The module-level `mockUsers` array that `register` and `updateProfile` mutate is passed in and returned explicitly.
- The products table is a map from id to row. A row missing from the map stands for the "not found" response of a query.
- Inputs the model cannot produce itself become parameters:
  - the id the database assigns on insert;
  - the clock-based id of a new user;
  - whether the unseen customer service accepted a favourite change (`stored`).

## Model

| member | source | states |
|---|---|---|
| `Navigator.HandleQuestionClick` | src/components/RecommendedQuestions.tsx:269-297 | Each of the four intents sets exactly one flag, opens its own view and keeps the cart and both selections. Any other text changes nothing and is forwarded verbatim. |
| `Navigator.HandleBackToQuestions` | src/components/RecommendedQuestions.tsx:299-307 | Back shows the menu, clears all five flags and both selections, and keeps the cart. |
| `Navigator.BackIdempotent` | src/components/RecommendedQuestions.tsx:299-307 | Going back twice is going back once. |
| `Navigator.HandleBackToCategories` | src/components/RecommendedQuestions.tsx:309-313 | Raises the category grid flag and lowers the category-products flag, clearing the selected category. The other three flags, the payment method and the cart are kept, so the category grid shows unless a higher-priority panel is up. |
| `Navigator.HandleProductClick` | src/components/RecommendedQuestions.tsx:315-321 | A sold-out product changes nothing and sends nothing. An in-stock one sends "ขอดูรายละเอียด" + name and clears only the product grid. |
| `Navigator.HandleCategoryClick` | src/components/RecommendedQuestions.tsx:323-327 | The category is remembered, its product grid is raised and the category grid is hidden. The other three flags, the payment method and the cart are kept, and the chosen category's products are shown unless a higher-priority panel is up. |
| `Navigator.CategoryRoundTrip` | src/components/RecommendedQuestions.tsx:309-313 | From the category grid, opening a category and going back restores the session with the selected category emptied. |
| `Navigator.HandleCategoryProductClick` | src/components/RecommendedQuestions.tsx:329-332 | Sends the Thai and English names and closes the grid, but keeps `selectedCategory`. |
| `Navigator.SelectPaymentMethod` | src/components/RecommendedQuestions.tsx:574-590 | Choosing a payment method records it and changes nothing else: not the five flags, the selected category, the view or the cart. |
| `Navigator.HandleConfirmOrder` | src/components/RecommendedQuestions.tsx:334-341 | Without a method it only alerts and changes nothing. With one it sends a confirmation naming the method and clears only `showOrderSummary`. |
| `Navigator.ConfirmNamesOfferedMethod` | src/components/RecommendedQuestions.tsx:334-341 | In every reachable state where confirm is enabled, the message names one of the two offered methods, never "undefined". |
| `Navigator.ConfirmThenReorderKeepsSelection` | src/components/RecommendedQuestions.tsx:334-341 | After confirming, reopening the order summary shows the same cart with the same method still selected. |
| `Navigator.HandleOrderTracking` | src/components/RecommendedQuestions.tsx:343-345 | Only forwards "ติดตามออเดอร์ " + order id; the state is unchanged. |
| `Navigator.Take` | src/components/RecommendedQuestions.tsx:823 | `slice(0, n)`: the prefix of exactly min(n, length) items. |
| `Navigator.InvInductive` | src/components/RecommendedQuestions.tsx:254-260 | Every enabled action preserves the panel invariant: at most one flag set, tracking hidden, the selections drawn from the tables, and a valid cart. |
| `Navigator.RunKeepsInv` | src/components/RecommendedQuestions.tsx:254-260 | The invariant holds after any run of enabled actions. |
| `Navigator.ReachableAtMostOnePanel` | src/components/RecommendedQuestions.tsx:254-260 | From the all-false initial state, every reachable state shows at most one panel and never the order-tracking view. |
| `Navigator.ViewMatchesFlags` | src/components/RecommendedQuestions.tsx:379-816 | Under the invariant, the view chosen by the render chain corresponds one-to-one with the flag that is set, and the menu shows exactly when no flag is set. |
| `Navigator.CategoryNamesNonEmpty` | src/components/RecommendedQuestions.tsx:36-63 | No category is named "", so a selected category always shows its grid. |
| `Cart.Find` | src/components/RecommendedQuestions.tsx:365 | Finds a line with the id exactly when the cart holds that id. |
| `Cart.RemoveFromCart` | src/components/RecommendedQuestions.tsx:360-362 | No line with the id remains, and the cart does not grow. |
| `Cart.RemoveFromCartCounts` | src/components/RecommendedQuestions.tsx:360-362 | Removal drops exactly the lines with the id; every other line keeps its multiplicity. |
| `Cart.RemoveFromCartSubset` | src/components/RecommendedQuestions.tsx:360-362 | Every remaining line was in the cart and has a different id. |
| `Cart.RemoveFromCartIds` | src/components/RecommendedQuestions.tsx:360-362 | Every remaining id was in the cart. |
| `Cart.RemoveFromCartUnique` | src/components/RecommendedQuestions.tsx:360-362 | Removal keeps ids unique. |
| `Cart.RemoveFromCartValid` | src/components/RecommendedQuestions.tsx:360-362 | Removal leaves the id absent and keeps the ledger invariants. |
| `Cart.RemoveAbsentIsNoOp` | src/components/RecommendedQuestions.tsx:360-362 | Removing an absent id changes nothing. |
| `Cart.RemoveIdempotent` | src/components/RecommendedQuestions.tsx:360-362 | Removing twice equals removing once. |
| `Cart.SetQuantity` | src/components/RecommendedQuestions.tsx:353-357 | The matching line gets the new quantity; every other line, and the order of ids, is kept. |
| `Cart.UpdateQuantity` | src/components/RecommendedQuestions.tsx:348-358 | A quantity ≤ 0 is exactly a removal; a positive one keeps the ids. Both keep the ledger invariants. |
| `Cart.UpdateQuantitySetsQuantity` | src/components/RecommendedQuestions.tsx:348-358 | A positive update leaves exactly q units of that product and every other product's quantity untouched. |
| `Cart.AddToCart` | src/components/RecommendedQuestions.tsx:364-371 | An existing id keeps the id list; a new product is appended with quantity 1. The ledger invariants are kept. |
| `Cart.AddToCartQuantity` | src/components/RecommendedQuestions.tsx:364-371 | Adding puts exactly one more unit of the product in the cart. |
| `Cart.FindUnique` | src/components/RecommendedQuestions.tsx:365 | With unique ids, the found line is the one at that id's index. |
| `Cart.SubtotalAppend` | src/components/RecommendedQuestions.tsx:374 | Appending a line adds price × quantity to the subtotal. |
| `Cart.SubtotalRemove` | src/components/RecommendedQuestions.tsx:360-362 | Removing a line takes exactly its price × quantity off the subtotal. |
| `Cart.SubtotalSetQuantity` | src/components/RecommendedQuestions.tsx:353-357 | Setting a line's quantity replaces its amount by price × the new quantity. |
| `Cart.SubtotalAddExisting` | src/components/RecommendedQuestions.tsx:364-367 | Adding a product already in the cart raises the subtotal by its stored price. |
| `Cart.SubtotalAddToCart` | src/components/RecommendedQuestions.tsx:364-376 | Adding charges exactly one more unit: the stored price if the product is present, else the catalog price. |
| `ChatCatalog.InitialCartTotals` | src/components/RecommendedQuestions.tsx:263-267 | The starting cart is valid, with subtotal 435 and total 485 (shipping fee 50, line 375). |
| `ChatCatalog.SelectablePaymentIds` | src/components/RecommendedQuestions.tsx:574 | Only the first two payment methods are offered. |
| `ChatCatalog.PaymentMethodName` | src/components/RecommendedQuestions.tsx:339 | A name is found exactly when some method has the id, and it is that method's name. |
| `ChatCatalog.FindMethod` | src/components/RecommendedQuestions.tsx:339 | Lookup by id over any method list: found exactly when some method has the id, and then the name is that of the first such method, as `find` returns. |
| `ChatCatalog.TrackingLabel` | src/components/RecommendedQuestions.tsx:452 | The button reads "ชำระเงิน" exactly for orders whose payment is pending. |
| `ChatCatalog.ListedOrdersOfferNoPayment` | src/components/RecommendedQuestions.tsx:399 | Both listed orders are paid, so only the unlisted third order would offer payment. |
| `ChatCatalog.MenuOmitsTracking` | src/components/RecommendedQuestions.tsx:823 | The tracking question exists but is not among the four rendered menu buttons. |
| `ProductRecords.ConvertToProduct` | src/services/productService.ts:80-100 | Null columns read as '' / 0 / false, with no discount and no tags. A missing or empty farmer name or address reads as 'Unknown Farmer' / 'Unknown Location'. A zero discount reads as absent. |
| `ProductRecords.ParseTags` | src/services/productService.ts:97 | A null or empty column gives no tags. Otherwise the tags are at least one piece, each trimmed and comma-free. |
| `ProductRecords.StoreTags` | src/services/productService.ts:114 | The column is null exactly for an empty tag list. |
| `ProductRecords.StoreDiscount` | src/services/productService.ts:113 | Stored exactly when positive, and then unchanged. |
| `ProductRecords.ConvertCreateDataToDb` | src/services/productService.ts:103-122 | The new row has the creating farmer as owner, in-stock = stock > 0, rating 45 tenths and no reviews. |
| `ProductRecords.CreateReadRoundTrip` | src/services/productService.ts:80-122 | Create then read returns the submitted fields, with in-stock derived, 4.5 stars, no reviews, the creator as owner, and the discount only when positive. |
| `ProductRecords.TagsRoundTrip` | src/services/productService.ts:97 | Comma-free tags with a non-empty join are read back as their trimmed selves. |
| `ProductRecords.TrimmedTagsSurvive` | src/services/productService.ts:114 | Comma-free, trimmed tags with a non-empty join survive create and read unchanged. |
| `ProductRecords.SingleEmptyTagIsLost` | src/services/productService.ts:97 | The single tag "" is stored as "" and read back as no tags. |
| `ProductRecords.UpdatedRow` | src/services/productService.ts:358-376 | Only supplied fields change. A supplied stock sets in-stock to stock > 0, and an explicit inStock overrides it. Discount and tags follow the create encodings. Id, owner, rating and reviews are untouched. Each of name, price, unit, category, description, image and organic takes the supplied value when given and is kept otherwise. |
| `ProductRecords.UpdateReadBack` | src/services/productService.ts:363-374 | Reading an updated row back shows every supplied field and, for every field not supplied, the value the row read as before. |
| `ProductRecords.EmptyUpdateIsNoOp` | src/services/productService.ts:358-376 | An update that supplies nothing leaves the row unchanged. |
| `ProductRecords.UpdateProduct` | src/services/productService.ts:340-397 | Fails with the not-found or not-owner message; succeeds exactly for the owner. The stored row is the old row with the payload written over it, the other rows are unchanged, and the product returned is that row as read back. |
| `ProductRecords.DeleteProduct` | src/services/productService.ts:408-430 | Fails with the not-found or not-owner message; succeeds exactly for the owner and removes only that row. |
| `ProductRecords.CreateProduct` | src/services/productService.ts:307-331 | Inserts exactly the converted create data under a fresh id, so that `CreateReadRoundTrip` applies to it. The row is owned by the creator, the other rows are left alone, and the product is returned as read back. |
| `ProductRecords.ReadRows` | src/services/productService.ts:149-156 | A read succeeds exactly when every row joins an owner. It then returns one product per row, in order, each converted with its owner. Otherwise it fails with the null-read TypeError. |
| `ProductRecords.NullOwnerFailsRead` | src/services/productService.ts:12 | One product whose owner column is null makes the whole read fail. |
| `ProductRecords.OnlyOwnerMayModify` | src/services/productService.ts:354-356 | Anyone but the stored owner fails to update or delete. |
| `ProductRecords.CreatorOwnsProduct` | src/services/productService.ts:422-424 | The creating farmer can update the new product, and deleting it restores the table. |
| `ProductRecords.TrimAll` | src/services/productService.ts:97 | Trims each piece, keeping the count. |
| `CategoryStats.DistinctSpec` | src/services/productService.ts:461 | The distinct list has no duplicates. It holds exactly the non-empty categories, in order of their first rows. |
| `CategoryStats.DistinctCategories` | src/services/productService.ts:461 | The loop computes the distinct list: no duplicates, exactly the present categories. |
| `CategoryStats.Count` | src/services/productService.ts:489-495 | A category's count is 0 exactly when no row holds it. |
| `CategoryStats.TallyCounts` | src/services/productService.ts:489-495 | The tally object holds exactly the present categories, each with its row count. |
| `CategoryStats.CountsSumToRows` | src/services/productService.ts:489-495 | The counts over the distinct categories add up to the rows with a present category. |
| `CategoryStats.StyleOf` | src/services/productService.ts:498-514 | A category in the table gets its icon and colour; any other gets '📦' and gray. |
| `CategoryStats.ListedBeforeTotalPreorder` | src/services/productService.ts:518-523 | The summary's comparator is total and transitive. |
| `CategoryStats.CategoriesWithCountsContents` | src/services/productService.ts:489-515 | The summary lists exactly the present categories, each with its row count and style. |
| `CategoryStats.CategoriesWithCountsOrdered` | src/services/productService.ts:518-523 | The summary has no duplicates and is ordered by count descending, then name ascending. |
| `CategoryStats.CategoriesWithCountsTotal` | src/services/productService.ts:489-495 | The summary's counts add up to the rows with a present category. |
| `CategoryStats.Entry` | src/services/productService.ts:509-515 | An entry carries its name, count, and the style's icon and colour. |
| `ProductFilter.FilterStages` | src/pages/ProductsPage.tsx:241-276 | The stages list nothing the input lacks and never grow the list. |
| `ProductFilter.FilterStagesIsOneFilter` | src/pages/ProductsPage.tsx:241-276 | Running the guarded stages in order equals one filter by their conjunction. |
| `ProductFilter.BeforeTotalPreorder` | src/pages/ProductsPage.tsx:279-290 | Each sort key's comparator is total and transitive. |
| `ProductFilter.ApplyFiltersCounts` | src/pages/ProductsPage.tsx:241-292 | The result holds each passing product exactly as often as the input and nothing else: a permutation of the filtered subsequence. |
| `ProductFilter.ApplyFiltersSoundComplete` | src/pages/ProductsPage.tsx:244-276 | A product is listed iff it is in the input and passes. Listed products respect the price range, a non-'ทั้งหมด' category and location, and the organic and in-stock flags. |
| `ProductFilter.ApplyFiltersStable` | src/pages/ProductsPage.tsx:279-290 | Products the key cannot tell apart, such as two with equal prices, are listed in their original order. |
| `ProductFilter.ApplyFiltersSorted` | src/pages/ProductsPage.tsx:279-290 | The result is ordered by the key: price ascending, rating descending, id descending for newest, otherwise name. |
| `ProductFilter.SearchMeaning` | src/pages/ProductsPage.tsx:244-251 | A product matches iff the lowered term occurs in its lowered name, farmer, category or some tag. |
| `ProductFilter.ResetFilters` | src/pages/ProductsPage.tsx:336-346 | Restores 'ทั้งหมด' for category and location, price 0–1000, organic off, in-stock on, name order, and an empty search. |
| `ProductFilter.ResetView` | src/pages/ProductsPage.tsx:336-346 | After a reset exactly the in-stock products priced 0–1000 are listed, in name order. |
| `ProductFilter.AddFavorite` | src/pages/ProductsPage.tsx:308-320 | A customer's accepted add appends the name; otherwise nothing changes. |
| `ProductFilter.RemoveFavorite` | src/pages/ProductsPage.tsx:322-334 | A customer's accepted remove deletes every copy of the name and keeps every other name's count; otherwise nothing changes. |
| `ProductFilter.ToggleFavorite` | src/pages/ProductsPage.tsx:349-392 | The heart removes iff the name is already a favourite, and adds otherwise. |
| `ProductFilter.ToggleTwiceRestores` | src/pages/ProductsPage.tsx:392 | Two accepted clicks on a non-favourite restore the list. |
| `Auth.Reduce` | src/contexts/AuthContext.tsx:20-52 | START sets loading and clears the error, keeping the user. SUCCESS signs the payload in. ERROR signs out with the message. LOGOUT signs out keeping `isLoading`. CLEAR_ERROR changes only the error. |
| `Auth.ReducePreservesConsistent` | src/contexts/AuthContext.tsx:20-52 | Every action preserves isAuthenticated ⇔ user present. |
| `Auth.ReduceAllConsistent` | src/contexts/AuthContext.tsx:20-52 | So does any sequence of actions. |
| `Auth.ReachableConsistent` | src/contexts/AuthContext.tsx:54-59 | From the initial state, every reachable state is consistent. |
| `Auth.FindByEmail` | src/contexts/AuthContext.tsx:112 | Finds the first user with the email, or none when no user has it. |
| `Auth.CheckLogin` | src/contexts/AuthContext.tsx:112-122 | An unknown email fails first, whatever the password; then a password under 6 characters fails. Otherwise the first user with that email is returned, as `find` does, even when a profile edit has duplicated the email. |
| `Auth.Login` | src/contexts/AuthContext.tsx:104-131 | Success signs the user in; failure signs out with the message. Loading ends either way. |
| `Auth.NewUser` | src/contexts/AuthContext.tsx:156-169 | The new user copies the form, is unverified, and gets the avatar for its role. |
| `Auth.CheckRegister` | src/contexts/AuthContext.tsx:138-172 | The first failing check gives the error: mismatch, then short password, then existing email. Success appends the new user. |
| `Auth.Register` | src/contexts/AuthContext.tsx:133-181 | Success appends and signs in the new user with no error; failure keeps the list and signs out with the message. Loading ends either way. |
| `Auth.RegisterThenLogin` | src/contexts/AuthContext.tsx:112-172 | A freshly registered user can log in with the same email and password and gets the new record. |
| `Auth.RegisterTwiceFails` | src/contexts/AuthContext.tsx:147-172 | A second registration with the same email fails. |
| `Auth.Merge` | src/contexts/AuthContext.tsx:197 | Exactly the supplied fields are overwritten. |
| `Auth.IndexOfId` | src/contexts/AuthContext.tsx:200 | The index of the first user with the id, or none. |
| `Auth.UpdateProfile` | src/contexts/AuthContext.tsx:188-207 | No user: nothing happens. Otherwise the merged record is signed in and replaces only the first list entry with the old id. |
| `Auth.EmptyPatchKeepsUser` | src/contexts/AuthContext.tsx:197 | An empty patch signs the same user in again. |
| `Auth.UpdateProfileIdempotent` | src/contexts/AuthContext.tsx:197 | Applying the same patch twice gives the same user as once. |
| `Text.IncludesIffOccurs` | src/pages/ProductsPage.tsx:246 | `includes` holds exactly when the needle occurs at some index. |
| `Text.Lower` | src/pages/ProductsPage.tsx:246 | Keeps the length, leaves no upper-case ASCII letter, and changes nothing else. |
| `Text.LowerIdempotent` | src/pages/ProductsPage.tsx:246 | Lowering twice is lowering once. |
| `Text.LexLeTotal` | src/pages/ProductsPage.tsx:288 | Any two names are comparable. |
| `Text.LexLeTransitive` | src/pages/ProductsPage.tsx:288 | Name order is transitive. |
| `Text.Split` | src/services/productService.ts:97 | Gives at least one piece, none containing the separator. |
| `Text.JoinSplit` | src/services/productService.ts:97 | Joining the split pieces restores the text. |
| `Text.SplitJoin` | src/services/productService.ts:114 | Splitting the join of separator-free pieces (with a non-empty join) gives the pieces back. |
| `Text.Trim` | src/services/productService.ts:97 | The result is trimmed and sits in the input at an index where everything before it and after it is white space. So only white space is removed, and an already-trimmed input comes back unchanged. |
| `Text.TrimIdempotent` | src/services/productService.ts:97 | Trimming twice is trimming once. |
| `Sorting.Sort` | src/pages/ProductsPage.tsx:279 | A permutation of the input. |
| `Sorting.SortStable` | src/pages/ProductsPage.tsx:279 | The sort is stable: elements that tie under the comparator come out in the order they went in, as the stable `Array.prototype.sort` guarantees. |
| `Sorting.SortSorted` | src/pages/ProductsPage.tsx:279-290 | With a total, transitive comparator the result is ordered. |
| `Sorting.SortSameElements` | src/services/productService.ts:518 | Sorting keeps exactly the elements it was given. |
| `Lists.Keep` | src/pages/ProductsPage.tsx:245 | Keeps only accepted elements of the input, never growing. |
| `Lists.KeepCounts` | src/pages/ProductsPage.tsx:245 | Each accepted element keeps its multiplicity, and each rejected one is gone. |
| `Lists.KeepKeep` | src/pages/ProductsPage.tsx:253-276 | Two filters in a row are one filter by the conjunction. |
| `Lists.StageAfterKeep` | src/pages/ProductsPage.tsx:253-276 | A stage guarded by an `if`, after a filter, is one filter. |

## Left out

- Every Supabase query (`.from/.select/.eq/.or/.insert/.update/.delete`) and its error paths.
  - This is network I/O through `src/lib/supabase.ts`, which is not part of this model.
  - A missing row stands for the not-found response. The failed-update, failed-insert and failed-delete messages are not modelled.
  - `getAllProducts`, `getProductsByCategory`, `getProductsByFarmer`, `searchProducts` and `getProductById` are such queries followed by the per-row conversion. That conversion is modelled by `ProductRecords.ReadRows`, including the failure on a row without an owner.
- `localStorage`, including restoring a session on mount: storage I/O and JSON parsing.
- The `setTimeout` delays, `Date.now()` ids and `new Date()` timestamps: clock. Ids are parameters, and timestamps are absent from the records.
- The discounted price `price * (1 - discount / 100)` and `toFixed`: floating point.
- `toLocaleString` and date formatting: presentation.
- JSX, Tailwind classes, icons and images beyond the image URL field: presentation.
- `loading` disabling the heart button while a request is in flight, and React's batching of `setState` calls: concurrency. Each handler is one atomic transition.
- The stale `cartItems` closure in `addToCart`: concurrency. Each handler sees the current cart.
- The customer service behind favourites: not part of this model. Its success is the `stored` parameter.
- The favourites loaded when the page mounts: I/O.
- `src/pages/ProfilePage.tsx`: an edit form whose logic is record copying plus calls to a service that is not part of this model.
- `src/pages/HomePage.tsx`: static marketing.
- `src/App.tsx`: routing.
- Object-prototype keys in `getCategoriesWithCounts`: a category named like a built-in property (`constructor`, `__proto__`) would collide with `Object.prototype` in the count object. The model treats the count object as a plain map.
- JavaScript spread copies a patch field that is present with the value `undefined`. `Auth.Merge` treats such a field as absent.
- Text.Lower: lowers ASCII letters only, rather than applying Unicode's full case mapping. This is a deliberate simplification.
- Text.LexLe: orders by code points rather than the ICU collation of `localeCompare`. This is a deliberate simplification.
- ProductRecords.ConvertToProduct: keeps the rating in tenths rather than dividing by 10, because decimals are floating point.
- ProductRecords.UpdateProduct: the owner record joined onto the returned product is a parameter, not looked up from `farmerId`. The foreign key on `product_owner` guarantees the source's join finds that user.
- ProductRecords.CreateProduct: the owner record joined onto the returned product is a parameter, for the same reason.
- ProductRecords.ConvertToProduct: takes a joined owner record that is present. A null join, which throws a TypeError in the source, is modelled one level up by `ProductRecords.ReadRows`. The wording of that TypeError depends on the JavaScript engine; V8's wording is used.
- Auth.CheckLogin / Auth.CheckRegister: the six-character password minimum counts Unicode scalar values, whereas JavaScript's `length` counts UTF-16 code units. A character outside the Basic Multilingual Plane (an emoji, say) counts once here and twice in the source, so such a password can fail here and pass there.

=== FILE: auth.dfy ===
/** The authentication state of src/contexts/AuthContext.tsx: the reducer,
    its initial state, the validation cascades of `login` and `register`,
    and the merge done by `updateProfile`. The list of known users, which
    the source keeps in a module-level array that `register` and
    `updateProfile` mutate, is passed in and returned explicitly. */
module Auth {
  import opened Wrappers

  datatype Role = Farmer | Customer

  /** A user record; the creation date is not modelled. */
  datatype User = User(
    id: string,
    email: string,
    name: string,
    role: Role,
    phone: string,
    location: string,
    farmName: Option<string>,
    isVerified: bool,
    avatar: string)

  datatype AuthState = AuthState(user: Option<User>, isAuthenticated: bool, isLoading: bool, error: Option<string>)

  datatype AuthAction =
    | AuthStart
    | AuthSuccess(payload: User)
    | AuthError(message: string)
    | AuthLogout
    | ClearError

  const InitialState: AuthState := AuthState(None, false, false, None)

  const UserNotFound: string := "ไม่พบผู้ใช้งานนี้ในระบบ"
  const PasswordTooShort: string := "รหัสผ่านต้องมีอย่างน้อย 6 ตัวอักษร"
  const PasswordMismatch: string := "รหัสผ่านไม่ตรงกัน"
  const EmailTaken: string := "อีเมลนี้ถูกใช้งานแล้ว"
  const MinPasswordLength: nat := 6

  const FarmerAvatar: string := "https://images.pexels.com/photos/1222271/pexels-photo-1222271.jpeg?auto=compress&cs=tinysrgb&w=300"
  const CustomerAvatar: string := "https://images.pexels.com/photos/1239291/pexels-photo-1239291.jpeg?auto=compress&cs=tinysrgb&w=300"

  /** The state's two views of "who is signed in" agree. */
  predicate Consistent(s: AuthState)
  {
    s.isAuthenticated <==> s.user.Some?
  }

  /** `authReducer`. */
  function Reduce(s: AuthState, a: AuthAction): (r: AuthState)
    ensures a.AuthStart? ==> r.isLoading && r.error.None? && r.user == s.user && r.isAuthenticated == s.isAuthenticated
    ensures a.AuthSuccess? ==> r.user == Some(a.payload) && r.isAuthenticated && !r.isLoading && r.error.None?
    ensures a.AuthError? ==> r.user.None? && !r.isAuthenticated && !r.isLoading && r.error == Some(a.message)
    ensures a.AuthLogout? ==> r.user.None? && !r.isAuthenticated && r.error.None? && r.isLoading == s.isLoading
    ensures a.ClearError? ==> r == s.(error := None)
  {
    match a
    case AuthStart => s.(isLoading := true, error := None)
    case AuthSuccess(u) => s.(isLoading := false, isAuthenticated := true, user := Some(u), error := None)
    case AuthError(m) => s.(isLoading := false, isAuthenticated := false, user := None, error := Some(m))
    case AuthLogout => s.(isAuthenticated := false, user := None, error := None)
    case ClearError => s.(error := None)
  }

  function ReduceAll(s: AuthState, actions: seq<AuthAction>): AuthState
    decreases |actions|
  {
    if |actions| == 0 then s else ReduceAll(Reduce(s, actions[0]), actions[1..])
  }

  lemma ReducePreservesConsistent(s: AuthState, a: AuthAction)
    requires Consistent(s)
    ensures Consistent(Reduce(s, a))
  {
  }

  /** Starting from the initial state, no sequence of actions separates
      `isAuthenticated` from the presence of a user. */
  lemma {:induction false} ReduceAllConsistent(s: AuthState, actions: seq<AuthAction>)
    requires Consistent(s)
    ensures Consistent(ReduceAll(s, actions))
    decreases |actions|
  {
    if |actions| > 0 {
      ReducePreservesConsistent(s, actions[0]);
      ReduceAllConsistent(Reduce(s, actions[0]), actions[1..]);
    }
  }

  lemma ReachableConsistent(actions: seq<AuthAction>)
    ensures Consistent(ReduceAll(InitialState, actions))
  {
    ReduceAllConsistent(InitialState, actions);
  }

  /** Index `i` holds the first user with the given email. */
  predicate FirstWithEmail(users: seq<User>, email: string, i: int)
  {
    && 0 <= i < |users| && users[i].email == email
    && forall j :: 0 <= j < i ==> users[j].email != email
  }

  /** The first user with the given email, as `Array.prototype.find`. */
  function FindByEmail(users: seq<User>, email: string): (r: Option<User>)
    ensures r.None? <==> forall i :: 0 <= i < |users| ==> users[i].email != email
    ensures r.Some? ==> exists i :: FirstWithEmail(users, email, i) && users[i] == r.value
  {
    if |users| == 0 then None
    else if users[0].email == email then
      assert FirstWithEmail(users, email, 0);
      Some(users[0])
    else
      var r := FindByEmail(users[1..], email);
      assert r.Some? ==> exists i :: FirstWithEmail(users, email, i) && users[i] == r.value by {
        if r.Some? {
          var k :| FirstWithEmail(users[1..], email, k) && users[1..][k] == r.value;
          assert forall j :: 1 <= j < k + 1 ==> users[j] == users[1..][j - 1];
          assert FirstWithEmail(users, email, k + 1);
        }
      }
      r
  }

  datatype Credentials = Credentials(email: string, password: string)

  /** `login`'s checks: an unknown email fails first, whatever the
      password; then a password shorter than six characters; any password
      of six or more is accepted for a known email. */
  function CheckLogin(users: seq<User>, c: Credentials): (r: Result<User, string>)
    ensures FindByEmail(users, c.email).None? ==> r == Failure(UserNotFound)
    ensures FindByEmail(users, c.email).Some? && |c.password| < MinPasswordLength ==> r == Failure(PasswordTooShort)
    ensures r.Success? <==> FindByEmail(users, c.email).Some? && |c.password| >= MinPasswordLength
    ensures r.Success? ==> r.value.email == c.email && r.value in users
    ensures r.Success? ==> Some(r.value) == FindByEmail(users, c.email)
  {
    match FindByEmail(users, c.email)
    case None => Failure(UserNotFound)
    case Some(u) => if |c.password| < MinPasswordLength then Failure(PasswordTooShort) else Success(u)
  }

  /** `login` as seen by the reducer: a start, then success or error. */
  function Login(s: AuthState, users: seq<User>, c: Credentials): (r: AuthState)
    ensures CheckLogin(users, c).Success? ==> r.isAuthenticated && r.user == Some(CheckLogin(users, c).value) && r.error.None?
    ensures CheckLogin(users, c).Failure? ==> !r.isAuthenticated && r.user.None? && r.error == Some(CheckLogin(users, c).error)
    ensures !r.isLoading
  {
    var started := Reduce(s, AuthStart);
    match CheckLogin(users, c)
    case Success(u) => Reduce(started, AuthSuccess(u))
    case Failure(m) => Reduce(started, AuthError(m))
  }

  datatype RegisterData = RegisterData(
    email: string, password: string, confirmPassword: string, name: string,
    role: Role, phone: string, location: string, farmName: Option<string>)

  /** The record `register` creates; `newId` stands for the clock-based id. */
  function NewUser(newId: string, d: RegisterData): (u: User)
    ensures u.id == newId && u.email == d.email && u.name == d.name && u.role == d.role
    ensures u.phone == d.phone && u.location == d.location && u.farmName == d.farmName
    ensures !u.isVerified
    ensures u.avatar == (if d.role == Farmer then FarmerAvatar else CustomerAvatar)
  {
    User(newId, d.email, d.name, d.role, d.phone, d.location, d.farmName, false,
         if d.role == Farmer then FarmerAvatar else CustomerAvatar)
  }

  /** `register`'s checks in order: mismatched confirmation, then a short
      password, then an email already in use. On success the new user is
      appended to the known users. */
  function CheckRegister(users: seq<User>, d: RegisterData, newId: string): (r: Result<(User, seq<User>), string>)
    ensures d.password != d.confirmPassword ==> r == Failure(PasswordMismatch)
    ensures d.password == d.confirmPassword && |d.password| < MinPasswordLength ==> r == Failure(PasswordTooShort)
    ensures (d.password == d.confirmPassword && |d.password| >= MinPasswordLength && FindByEmail(users, d.email).Some?)
              ==> r == Failure(EmailTaken)
    ensures r.Success? <==> d.password == d.confirmPassword && |d.password| >= MinPasswordLength
                            && forall i :: 0 <= i < |users| ==> users[i].email != d.email
    ensures r.Success? ==> r.value.0 == NewUser(newId, d) && r.value.1 == users + [r.value.0]
  {
    if d.password != d.confirmPassword then Failure(PasswordMismatch)
    else if |d.password| < MinPasswordLength then Failure(PasswordTooShort)
    else if FindByEmail(users, d.email).Some? then Failure(EmailTaken)
    else
      var u := NewUser(newId, d);
      Success((u, users + [u]))
  }

  /** `register` as seen by the reducer and the user list. */
  function Register(s: AuthState, users: seq<User>, d: RegisterData, newId: string): (r: (AuthState, seq<User>))
    ensures CheckRegister(users, d, newId).Success? ==>
              r.1 == users + [NewUser(newId, d)] && r.0.user == Some(NewUser(newId, d)) && r.0.isAuthenticated
              && r.0.error.None?
    ensures CheckRegister(users, d, newId).Failure? ==>
              r.1 == users && r.0.user.None? && !r.0.isAuthenticated && r.0.error == Some(CheckRegister(users, d, newId).error)
    ensures !r.0.isLoading
  {
    var started := Reduce(s, AuthStart);
    match CheckRegister(users, d, newId)
    case Success((u, users')) => (Reduce(started, AuthSuccess(u)), users')
    case Failure(m) => (Reduce(started, AuthError(m)), users)
  }

  /** A user who has just registered can log in with the same email and
      password, and gets the record registration created. */
  lemma RegisterThenLogin(users: seq<User>, d: RegisterData, newId: string)
    requires CheckRegister(users, d, newId).Success?
    ensures CheckLogin(CheckRegister(users, d, newId).value.1, Credentials(d.email, d.password)) == Success(NewUser(newId, d))
  {
    var users' := users + [NewUser(newId, d)];
    assert forall i :: 0 <= i < |users| ==> users'[i] == users[i];
    assert users'[|users|] == NewUser(newId, d);
  }

  /** Registering the same email twice fails the second time. */
  lemma RegisterTwiceFails(users: seq<User>, d: RegisterData, d2: RegisterData, id1: string, id2: string)
    requires CheckRegister(users, d, id1).Success?
    requires d2.email == d.email
    ensures CheckRegister(CheckRegister(users, d, id1).value.1, d2, id2).Failure?
  {
    var users' := CheckRegister(users, d, id1).value.1;
    assert users'[|users|].email == d.email;
  }

  /** The fields `updateProfile` may be given; an absent field keeps its
      value. */
  datatype UserPatch = UserPatch(
    id: Option<string>, email: Option<string>, name: Option<string>, role: Option<Role>,
    phone: Option<string>, location: Option<string>, farmName: Option<string>,
    isVerified: Option<bool>, avatar: Option<string>)

  /** `{ ...user, ...patch }`. */
  function Merge(u: User, p: UserPatch): (r: User)
    ensures r.id == p.id.GetOr(u.id) && r.email == p.email.GetOr(u.email) && r.name == p.name.GetOr(u.name)
    ensures r.role == p.role.GetOr(u.role) && r.phone == p.phone.GetOr(u.phone)
    ensures r.location == p.location.GetOr(u.location) && r.isVerified == p.isVerified.GetOr(u.isVerified)
    ensures r.avatar == p.avatar.GetOr(u.avatar)
    ensures r.farmName == (if p.farmName.Some? then p.farmName else u.farmName)
  {
    u.(id := p.id.GetOr(u.id), email := p.email.GetOr(u.email), name := p.name.GetOr(u.name),
       role := p.role.GetOr(u.role), phone := p.phone.GetOr(u.phone), location := p.location.GetOr(u.location),
       farmName := if p.farmName.Some? then p.farmName else u.farmName,
       isVerified := p.isVerified.GetOr(u.isVerified), avatar := p.avatar.GetOr(u.avatar))
  }

  /** The index of the first user with the given id, as `findIndex`. */
  function IndexOfId(users: seq<User>, id: string): (r: Option<nat>)
    ensures r.None? <==> forall i :: 0 <= i < |users| ==> users[i].id != id
    ensures r.Some? ==> r.value < |users| && users[r.value].id == id &&
                        forall j :: 0 <= j < r.value ==> users[j].id != id
  {
    if |users| == 0 then None
    else if users[0].id == id then Some(0)
    else match IndexOfId(users[1..], id)
      case None => None
      case Some(k) => Some(k + 1)
  }

  /** `updateProfile`: nothing happens without a signed-in user; otherwise
      the merged record replaces the first user with the old id and
      becomes the signed-in user. */
  function UpdateProfile(s: AuthState, users: seq<User>, p: UserPatch): (r: (AuthState, seq<User>))
    ensures s.user.None? ==> r == (s, users)
    ensures s.user.Some? ==> r.0.user == Some(Merge(s.user.value, p)) && r.0.isAuthenticated
                              && !r.0.isLoading && r.0.error.None?
    ensures |r.1| == |users|
    ensures s.user.Some? ==> forall i :: 0 <= i < |users| ==>
              r.1[i] == (if IndexOfId(users, s.user.value.id) == Some(i) then Merge(s.user.value, p) else users[i])
  {
    match s.user
    case None => (s, users)
    case Some(u) =>
      var updated := Merge(u, p);
      var users' := match IndexOfId(users, u.id)
        case None => users
        case Some(k) => users[k := updated];
      (Reduce(Reduce(s, AuthStart), AuthSuccess(updated)), users')
  }

  const EmptyPatch: UserPatch := UserPatch(None, None, None, None, None, None, None, None, None)

  /** Updating with an empty patch signs the same user in again. */
  lemma EmptyPatchKeepsUser(s: AuthState, users: seq<User>)
    requires s.user.Some?
    ensures UpdateProfile(s, users, EmptyPatch).0.user == s.user
  {
    assert Merge(s.user.value, EmptyPatch) == s.user.value;
  }

  /** Applying the same patch twice gives the same signed-in user as
      applying it once. */
  lemma UpdateProfileIdempotent(s: AuthState, users: seq<User>, p: UserPatch)
    ensures var (s1, users1) := UpdateProfile(s, users, p);
            UpdateProfile(s1, users1, p).0.user == s1.user
  {
  }
}

=== FILE: cart.dfy ===
/** The chatbot's cart ledger (src/components/RecommendedQuestions.tsx):
    an insertion-ordered list of items with `updateQuantity`,
    `removeFromCart`, `addToCart` and the derived totals. */
module Cart {
  import opened Wrappers

  datatype CartItem = CartItem(id: int, name: string, price: int, unit: string, quantity: int, image: string)

  /** An entry of the list of products that may be added to the cart. */
  datatype CatalogEntry = CatalogEntry(id: int, name: string, price: int, unit: string, image: string)

  /** The flat delivery charge added to every order. */
  const ShippingFee: int := 50

  function Ids(cart: seq<CartItem>): (ids: seq<int>)
    ensures |ids| == |cart|
  {
    seq(|cart|, i requires 0 <= i < |cart| => cart[i].id)
  }

  /** No two lines of the cart share an id. */
  predicate UniqueIds(cart: seq<CartItem>)
  {
    forall i, j :: 0 <= i < j < |cart| ==> cart[i].id != cart[j].id
  }

  /** No line is stored with a zero or negative quantity. */
  predicate PositiveQuantities(cart: seq<CartItem>)
  {
    forall i :: 0 <= i < |cart| ==> cart[i].quantity >= 1
  }

  predicate Valid(cart: seq<CartItem>)
  {
    UniqueIds(cart) && PositiveQuantities(cart)
  }

  /** `cartItems.find(item => item.id === id)`: the first line with `id`. */
  function Find(cart: seq<CartItem>, id: int): (r: Option<CartItem>)
    ensures r.None? <==> id !in Ids(cart)
    ensures r.Some? ==> r.value in cart && r.value.id == id
  {
    if |cart| == 0 then None
    else
      assert Ids(cart) == [cart[0].id] + Ids(cart[1..]);
      if cart[0].id == id then Some(cart[0]) else Find(cart[1..], id)
  }

  /** Units of product `id` in the cart (0 when it has no line). */
  function QuantityOf(cart: seq<CartItem>, id: int): int
  {
    match Find(cart, id)
    case Some(item) => item.quantity
    case None => 0
  }

  function LineTotal(item: CartItem): int
  {
    item.price * item.quantity
  }

  /** What the line for `id` contributes to the subtotal (0 when absent). */
  function LineOf(cart: seq<CartItem>, id: int): int
  {
    match Find(cart, id)
    case Some(item) => LineTotal(item)
    case None => 0
  }

  /** `cartItems.reduce((sum, item) => sum + item.price * item.quantity, 0)`. */
  function Subtotal(cart: seq<CartItem>): int
  {
    if |cart| == 0 then 0 else LineTotal(cart[0]) + Subtotal(cart[1..])
  }

  function Total(cart: seq<CartItem>): int
  {
    Subtotal(cart) + ShippingFee
  }

  /** `removeFromCart(id)`: keeps, in order, every line whose id differs. */
  function RemoveFromCart(cart: seq<CartItem>, id: int): (r: seq<CartItem>)
    ensures |r| <= |cart|
    ensures forall k :: 0 <= k < |r| ==> r[k].id != id
  {
    if |cart| == 0 then []
    else (if cart[0].id == id then [] else [cart[0]]) + RemoveFromCart(cart[1..], id)
  }

  /** Removal drops exactly the lines with `id`: every other line keeps its
      multiplicity. */
  lemma {:induction false} RemoveFromCartCounts(cart: seq<CartItem>, id: int)
    ensures forall item :: multiset(RemoveFromCart(cart, id))[item] == if item.id == id then 0 else multiset(cart)[item]
    decreases |cart|
  {
    if |cart| > 0 {
      RemoveFromCartCounts(cart[1..], id);
      assert cart == [cart[0]] + cart[1..];
    }
  }

  /** Every line left by a removal was already in the cart. */
  lemma RemoveFromCartSubset(cart: seq<CartItem>, id: int)
    ensures forall x :: x in RemoveFromCart(cart, id) ==> x in cart && x.id != id
  {
    var r := RemoveFromCart(cart, id);
    RemoveFromCartCounts(cart, id);
    forall x | x in r
      ensures x in cart && x.id != id
    {
      assert x in multiset(r);
    }
  }

  /** Every id left by a removal was already in the cart. */
  lemma {:induction false} RemoveFromCartIds(cart: seq<CartItem>, id: int)
    ensures forall k :: 0 <= k < |RemoveFromCart(cart, id)| ==> RemoveFromCart(cart, id)[k].id in Ids(cart)
    decreases |cart|
  {
    if |cart| > 0 {
      RemoveFromCartIds(cart[1..], id);
      assert Ids(cart) == [cart[0].id] + Ids(cart[1..]);
    }
  }

  /** In a cart with unique ids the first line's id occurs nowhere else. */
  lemma HeadIdFresh(cart: seq<CartItem>)
    requires UniqueIds(cart) && |cart| > 0
    ensures cart[0].id !in Ids(cart[1..])
  {
    forall m | 0 <= m < |cart| - 1
      ensures Ids(cart[1..])[m] != cart[0].id
    {
      assert Ids(cart[1..])[m] == cart[m + 1].id;
    }
  }

  lemma {:induction false} RemoveFromCartUnique(cart: seq<CartItem>, id: int)
    requires UniqueIds(cart)
    ensures UniqueIds(RemoveFromCart(cart, id))
    decreases |cart|
  {
    if |cart| > 0 {
      var rest := RemoveFromCart(cart[1..], id);
      RemoveFromCartUnique(cart[1..], id);
      if cart[0].id != id {
        HeadIdFresh(cart);
        RemoveFromCartIds(cart[1..], id);
        var r := [cart[0]] + rest;
        forall i, j | 0 <= i < j < |r|
          ensures r[i].id != r[j].id
        {
          if i == 0 {
            assert r[j] == rest[j - 1];
          } else {
            assert r[i] == rest[i - 1] && r[j] == rest[j - 1];
          }
        }
        assert RemoveFromCart(cart, id) == r;
      }
    }
  }

  /** Removal leaves no line with `id` and keeps the ledger invariants. */
  lemma RemoveFromCartValid(cart: seq<CartItem>, id: int)
    ensures id !in Ids(RemoveFromCart(cart, id))
    ensures Valid(cart) ==> Valid(RemoveFromCart(cart, id))
  {
    var r := RemoveFromCart(cart, id);
    RemoveFromCartSubset(cart, id);
    assert forall k :: 0 <= k < |r| ==> r[k] in r;
    if Valid(cart) {
      RemoveFromCartUnique(cart, id);
    }
  }

  /** The positive branch of `updateQuantity`: the line with `id` gets
      quantity `q`; every other line, and the order, is kept. */
  function SetQuantity(cart: seq<CartItem>, id: int, q: int): (r: seq<CartItem>)
    ensures Ids(r) == Ids(cart)
    ensures forall i :: 0 <= i < |r| && r[i].id != id ==> r[i] == cart[i]
    ensures forall i :: 0 <= i < |r| && r[i].id == id ==> r[i] == cart[i].(quantity := q)
  {
    seq(|cart|, i requires 0 <= i < |cart| => if cart[i].id == id then cart[i].(quantity := q) else cart[i])
  }

  /** `updateQuantity(id, q)`: a quantity of zero or less removes the line. */
  function UpdateQuantity(cart: seq<CartItem>, id: int, q: int): (r: seq<CartItem>)
    ensures q <= 0 ==> r == RemoveFromCart(cart, id)
    ensures q > 0 ==> Ids(r) == Ids(cart)
    ensures Valid(cart) ==> Valid(r)
  {
    if q <= 0 then
      RemoveFromCartValid(cart, id);
      RemoveFromCart(cart, id)
    else SetQuantity(cart, id, q)
  }

  /** A positive update of a line the cart holds leaves exactly `q` units
      of that product, and every other product's quantity untouched. */
  lemma UpdateQuantitySetsQuantity(cart: seq<CartItem>, id: int, q: int, other: int)
    requires Valid(cart) && q > 0 && id in Ids(cart) && other != id
    ensures QuantityOf(UpdateQuantity(cart, id, q), id) == q
    ensures QuantityOf(UpdateQuantity(cart, id, q), other) == QuantityOf(cart, other)
  {
    var r := SetQuantity(cart, id, q);
    var k :| 0 <= k < |cart| && Ids(cart)[k] == id;
    FindUnique(r, k);
    if other in Ids(cart) {
      var m :| 0 <= m < |cart| && Ids(cart)[m] == other;
      FindUnique(r, m);
      FindUnique(cart, m);
    }
  }

  /** `addToCart(product)`: a product already in the cart gains one unit;
      a new one is appended with quantity 1 at its catalog price. */
  function AddToCart(cart: seq<CartItem>, p: CatalogEntry): (r: seq<CartItem>)
    ensures Valid(cart) ==> Valid(r)
    ensures Valid(cart) ==> Ids(r) == if p.id in Ids(cart) then Ids(cart) else Ids(cart) + [p.id]
    ensures p.id !in Ids(cart) ==> r == cart + [CartItem(p.id, p.name, p.price, p.unit, 1, p.image)]
  {
    match Find(cart, p.id)
    case Some(existing) => UpdateQuantity(cart, p.id, existing.quantity + 1)
    case None =>
      var r := cart + [CartItem(p.id, p.name, p.price, p.unit, 1, p.image)];
      assert Ids(r) == Ids(cart) + [p.id];
      assert forall i :: 0 <= i < |cart| ==> cart[i].id == Ids(cart)[i] && Ids(cart)[i] in Ids(cart);
      r
  }

  /** Adding puts exactly one more unit of the product in the cart. */
  lemma AddToCartQuantity(cart: seq<CartItem>, p: CatalogEntry)
    requires Valid(cart)
    ensures QuantityOf(AddToCart(cart, p), p.id) == QuantityOf(cart, p.id) + 1
  {
    match Find(cart, p.id)
    case Some(existing) =>
      UpdateQuantitySetsQuantity(cart, p.id, existing.quantity + 1, p.id + 1);
    case None =>
      var r := AddToCart(cart, p);
      FindUnique(r, |cart|);
  }

  /** With unique ids, `Find` returns the line at the index holding `id`. */
  lemma FindUnique(cart: seq<CartItem>, k: int)
    requires UniqueIds(cart) && 0 <= k < |cart|
    ensures Find(cart, cart[k].id) == Some(cart[k])
  {
    if k > 0 {
      FindUnique(cart[1..], k - 1);
    }
  }

  /** Removing an id the cart does not hold changes nothing. */
  lemma {:induction false} RemoveAbsentIsNoOp(cart: seq<CartItem>, id: int)
    requires id !in Ids(cart)
    ensures RemoveFromCart(cart, id) == cart
    decreases |cart|
  {
    if |cart| > 0 {
      assert Ids(cart) == [cart[0].id] + Ids(cart[1..]);
      RemoveAbsentIsNoOp(cart[1..], id);
      assert cart == [cart[0]] + cart[1..];
    }
  }

  /** Removing twice is removing once. */
  lemma RemoveIdempotent(cart: seq<CartItem>, id: int)
    ensures RemoveFromCart(RemoveFromCart(cart, id), id) == RemoveFromCart(cart, id)
  {
    RemoveFromCartValid(cart, id);
    RemoveAbsentIsNoOp(RemoveFromCart(cart, id), id);
  }

  lemma {:induction false} SubtotalAppend(cart: seq<CartItem>, item: CartItem)
    ensures Subtotal(cart + [item]) == Subtotal(cart) + LineTotal(item)
    decreases |cart|
  {
    if |cart| > 0 {
      SubtotalAppend(cart[1..], item);
      assert (cart + [item])[1..] == cart[1..] + [item];
    }
  }

  /** Removing a line takes exactly that line's amount off the subtotal. */
  lemma {:induction false} SubtotalRemove(cart: seq<CartItem>, id: int)
    requires UniqueIds(cart)
    ensures Subtotal(RemoveFromCart(cart, id)) == Subtotal(cart) - LineOf(cart, id)
    decreases |cart|
  {
    if |cart| > 0 {
      var rest := RemoveFromCart(cart[1..], id);
      assert UniqueIds(cart[1..]);
      if cart[0].id == id {
        HeadIdFresh(cart);
        RemoveAbsentIsNoOp(cart[1..], id);
        assert RemoveFromCart(cart, id) == rest;
      } else {
        SubtotalRemove(cart[1..], id);
        assert RemoveFromCart(cart, id) == [cart[0]] + rest;
        assert ([cart[0]] + rest)[1..] == rest;
      }
    }
  }

  /** Setting the quantity of line `id` to `q` replaces its amount by
      price times `q`. */
  lemma {:induction false} SubtotalSetQuantity(cart: seq<CartItem>, id: int, q: int)
    requires UniqueIds(cart)
    ensures Subtotal(SetQuantity(cart, id, q)) ==
            Subtotal(cart) - LineOf(cart, id) + (if id in Ids(cart) then Find(cart, id).value.price * q else 0)
    decreases |cart|
  {
    if |cart| > 0 {
      var r := SetQuantity(cart, id, q);
      assert r[1..] == SetQuantity(cart[1..], id, q);
      assert UniqueIds(cart[1..]);
      assert Ids(cart) == [cart[0].id] + Ids(cart[1..]);
      if cart[0].id == id {
        HeadIdFresh(cart);
        assert r[1..] == cart[1..];
      } else {
        SubtotalSetQuantity(cart[1..], id, q);
      }
    }
  }

  /** One more unit adds the unit price to a line's amount. */
  lemma LineTotalSucc(item: CartItem)
    ensures LineTotal(item.(quantity := item.quantity + 1)) == LineTotal(item) + item.price
  {
  }

  /** Adding a product the cart holds costs what setting its line to one
      more unit costs. */
  lemma SubtotalAddExistingIsSet(cart: seq<CartItem>, p: CatalogEntry, existing: CartItem)
    requires Find(cart, p.id) == Some(existing) && existing.quantity >= 0
    ensures Subtotal(AddToCart(cart, p)) == Subtotal(SetQuantity(cart, p.id, existing.quantity + 1))
  {
  }

  /** One more unit on a line adds that line's price. */
  lemma SubtotalBumpLine(cart: seq<CartItem>, id: int, item: CartItem)
    requires UniqueIds(cart) && Find(cart, id) == Some(item)
    ensures Subtotal(SetQuantity(cart, id, item.quantity + 1)) == Subtotal(cart) + item.price
  {
    SubtotalSetExisting(cart, id, item, item.quantity + 1);
    LineTotalSucc(item);
  }

  /** Setting the quantity of a line the cart holds swaps its amount for
      the amount at the new quantity. */
  lemma SubtotalSetExisting(cart: seq<CartItem>, id: int, item: CartItem, q: int)
    requires UniqueIds(cart) && Find(cart, id) == Some(item)
    ensures Subtotal(SetQuantity(cart, id, q)) ==
            Subtotal(cart) - LineTotal(item) + LineTotal(item.(quantity := q))
  {
    SubtotalSetQuantity(cart, id, q);
  }

  lemma SubtotalAddExisting(cart: seq<CartItem>, p: CatalogEntry)
    requires UniqueIds(cart) && Find(cart, p.id).Some? && Find(cart, p.id).value.quantity >= 1
    ensures Subtotal(AddToCart(cart, p)) == Subtotal(cart) + Find(cart, p.id).value.price
  {
    var existing := Find(cart, p.id).value;
    SubtotalAddExistingIsSet(cart, p, existing);
    SubtotalBumpLine(cart, p.id, existing);
  }

  /** Adding a product charges exactly one more unit, at the price stored in
      the cart when the product already has a line (no re-pricing), or at
      the catalog price for a new line. */
  lemma SubtotalAddToCart(cart: seq<CartItem>, p: CatalogEntry)
    requires Valid(cart)
    ensures Subtotal(AddToCart(cart, p)) ==
            Subtotal(cart) + (if p.id in Ids(cart) then Find(cart, p.id).value.price else p.price)
  {
    if p.id in Ids(cart) {
      assert Find(cart, p.id).value in cart;
      SubtotalAddExisting(cart, p);
    } else {
      var item := CartItem(p.id, p.name, p.price, p.unit, 1, p.image);
      SubtotalAppend(cart, item);
    }
  }
}

=== FILE: category_stats.dfy ===
/** The category summaries of src/services/productService.ts: the distinct
    categories of `getCategories` and the counted, decorated and ordered
    list of `getCategoriesWithCounts`. The input is the category column of
    the products table, one entry per row, in the order the query returns
    them. */
module CategoryStats {
  import opened Wrappers
  import opened Text
  import opened Sorting

  /** A row's category takes part only when it is neither null nor "";
      the query drops the nulls and `filter(Boolean)` or the `if` in the
      count drops the empty strings. */
  predicate Present(c: Option<string>)
  {
    c.Some? && c.value != ""
  }

  predicate NoDuplicates<T(==)>(s: seq<T>)
  {
    forall i, j :: 0 <= i < j < |s| ==> s[i] != s[j]
  }

  /** The distinct present categories in order of first occurrence, the
      value of spreading a `Set` built from the column. */
  function Distinct(column: seq<Option<string>>): (names: seq<string>)
    decreases |column|
  {
    if |column| == 0 then []
    else
      var prev := Distinct(column[..|column| - 1]);
      var c := column[|column| - 1];
      if Present(c) && c.value !in prev then prev + [c.value] else prev
  }

  /** The position of the first row holding `name`. */
  function FirstRow(column: seq<Option<string>>, name: string): (k: nat)
    requires Some(name) in column
    ensures k < |column| && column[k] == Some(name)
    ensures forall j :: 0 <= j < k ==> column[j] != Some(name)
  {
    if column[0] == Some(name) then 0 else 1 + FirstRow(column[1..], name)
  }

  lemma {:induction false} FirstRowPrefix(column: seq<Option<string>>, n: nat, name: string)
    requires n <= |column| && Some(name) in column[..n]
    ensures FirstRow(column, name) == FirstRow(column[..n], name)
  {
    var k := FirstRow(column[..n], name);
    assert column[k] == column[..n][k];
    forall j | 0 <= j < k ensures column[j] != Some(name) {
      assert column[j] == column[..n][j];
    }
  }

  /** `Distinct` lists each present category once, nothing else, and in
      the order their first rows appear. */
  lemma {:induction false} DistinctSpec(column: seq<Option<string>>)
    ensures NoDuplicates(Distinct(column))
    ensures forall name :: name in Distinct(column) <==> name != "" && Some(name) in column
    ensures forall i, j :: 0 <= i < j < |Distinct(column)| ==>
              Some(Distinct(column)[i]) in column && Some(Distinct(column)[j]) in column &&
              FirstRow(column, Distinct(column)[i]) < FirstRow(column, Distinct(column)[j])
    decreases |column|
  {
    if |column| > 0 {
      var init := column[..|column| - 1];
      var c := column[|column| - 1];
      var prev := Distinct(init);
      DistinctSpec(init);
      assert column == init + [c];
      forall name | name in prev ensures Some(name) in column && FirstRow(column, name) == FirstRow(init, name) {
        FirstRowPrefix(column, |init|, name);
      }
      if Present(c) && c.value !in prev {
        assert Some(c.value) !in init;
        assert FirstRow(column, c.value) == |init|;
      }
    }
  }

  /** `getCategories`' de-duplication, written as the loop the `Set` runs. */
  method DistinctCategories(column: seq<Option<string>>) returns (names: seq<string>)
    ensures names == Distinct(column)
    ensures NoDuplicates(names)
    ensures forall name :: name in names <==> name != "" && Some(name) in column
  {
    names := [];
    var i := 0;
    while i < |column|
      invariant 0 <= i <= |column|
      invariant names == Distinct(column[..i])
    {
      assert column[..i + 1][..i] == column[..i];
      var c := column[i];
      if Present(c) && c.value !in names {
        names := names + [c.value];
      }
      i := i + 1;
    }
    assert column[..i] == column;
    DistinctSpec(column);
  }

  /** The number of rows holding `name`. */
  function Count(column: seq<Option<string>>, name: string): (n: nat)
    ensures n <= |column|
    ensures n == 0 <==> Some(name) !in column
  {
    if |column| == 0 then 0
    else Count(column[1..], name) + (if column[0] == Some(name) then 1 else 0)
  }

  lemma {:induction false} CountAppend(column: seq<Option<string>>, c: Option<string>, name: string)
    ensures Count(column + [c], name) == Count(column, name) + (if c == Some(name) then 1 else 0)
    decreases |column|
  {
    if |column| > 0 {
      assert (column + [c])[1..] == column[1..] + [c];
      CountAppend(column[1..], c, name);
    }
  }

  /** The `reduce` into an object: for each present category, one more
      than before, starting from 0. */
  function Tally(column: seq<Option<string>>): (counts: map<string, nat>)
    decreases |column|
  {
    if |column| == 0 then map[]
    else
      var m := Tally(column[..|column| - 1]);
      var c := column[|column| - 1];
      if Present(c) then m[c.value := (if c.value in m then m[c.value] else 0) + 1] else m
  }

  /** The tally holds exactly the present categories, each with its row
      count. */
  lemma {:induction false} TallyCounts(column: seq<Option<string>>)
    ensures forall name :: name in Tally(column) <==> name in Distinct(column)
    ensures forall name :: name in Tally(column) ==> Tally(column)[name] == Count(column, name)
    decreases |column|
  {
    if |column| > 0 {
      var init := column[..|column| - 1];
      var c := column[|column| - 1];
      TallyCounts(init);
      DistinctSpec(init);
      assert column == init + [c];
      forall name ensures Count(column, name) == Count(init, name) + (if c == Some(name) then 1 else 0) {
        CountAppend(init, c, name);
      }
    }
  }

  /** The sum of the counts listed for `names`. */
  function SumCounts(column: seq<Option<string>>, names: seq<string>): nat
  {
    if |names| == 0 then 0 else Count(column, names[0]) + SumCounts(column, names[1..])
  }

  lemma {:induction false} SumCountsAppendName(column: seq<Option<string>>, names: seq<string>, name: string)
    ensures SumCounts(column, names + [name]) == SumCounts(column, names) + Count(column, name)
    decreases |names|
  {
    if |names| > 0 {
      assert (names + [name])[1..] == names[1..] + [name];
      SumCountsAppendName(column, names[1..], name);
    }
  }

  lemma {:induction false} SumCountsAppendRow(column: seq<Option<string>>, c: Option<string>, names: seq<string>)
    requires NoDuplicates(names)
    ensures SumCounts(column + [c], names) ==
            SumCounts(column, names) + (if c.Some? && c.value in names then 1 else 0)
    decreases |names|
  {
    if |names| > 0 {
      CountAppend(column, c, names[0]);
      SumCountsAppendRow(column, c, names[1..]);
      assert c.Some? && c.value in names ==> c.value == names[0] || c.value in names[1..];
    }
  }

  /** The number of rows whose category is present. */
  function CountPresent(column: seq<Option<string>>): (n: nat)
    ensures n <= |column|
    decreases |column|
  {
    if |column| == 0 then 0
    else CountPresent(column[..|column| - 1]) + (if Present(column[|column| - 1]) then 1 else 0)
  }

  /** The counts over all distinct categories add up to the number of rows
      with a present category: every such row is counted exactly once. */
  lemma {:induction false} CountsSumToRows(column: seq<Option<string>>)
    ensures SumCounts(column, Distinct(column)) == CountPresent(column)
    decreases |column|
  {
    if |column| > 0 {
      var init := column[..|column| - 1];
      var c := column[|column| - 1];
      var prev := Distinct(init);
      assert column == init + [c];
      CountsSumToRows(init);
      DistinctSpec(init);
      SumCountsAppendRow(init, c, prev);
      if Present(c) && c.value !in prev {
        SumCountsAppendName(column, prev, c.value);
        assert Some(c.value) !in init;
        CountAppend(init, c, c.value);
      }
    }
  }

  datatype Style = Style(icon: string, color: string)

  datatype CategoryWithCount = CategoryWithCount(name: string, count: nat, icon: string, color: string)

  const DefaultStyle: Style := Style("📦", "bg-gray-100 text-gray-700")

  /** The icon and colour table of the eight known categories. */
  const StyleTable: seq<(string, Style)> := [
    ("ผลไม้", Style("🍎", "bg-red-100 text-red-700")),
    ("ผัก", Style("🥕", "bg-orange-100 text-orange-700")),
    ("ผักใบเขียว", Style("🥬", "bg-green-100 text-green-700")),
    ("ข้าว", Style("🌾", "bg-yellow-100 text-yellow-700")),
    ("ไข่", Style("🥚", "bg-blue-100 text-blue-700")),
    ("ผลไม้นอกฤดู", Style("🍓", "bg-pink-100 text-pink-700")),
    ("สมุนไพร", Style("🌿", "bg-emerald-100 text-emerald-700")),
    ("อื่นๆ", DefaultStyle)
  ]

  function StyleIn(table: seq<(string, Style)>, name: string): (s: Style)
    ensures (forall i :: 0 <= i < |table| ==> table[i].0 != name) ==> s == DefaultStyle
    ensures (exists i :: 0 <= i < |table| && table[i].0 == name) ==>
              exists i :: 0 <= i < |table| && table[i].0 == name && s == table[i].1
  {
    if |table| == 0 then DefaultStyle
    else if table[0].0 == name then table[0].1
    else StyleIn(table[1..], name)
  }

  /** The style of a category: its table entry, else the gray box. */
  function StyleOf(name: string): (s: Style)
    ensures (forall i :: 0 <= i < |StyleTable| ==> StyleTable[i].0 != name) ==> s == DefaultStyle
    ensures forall i :: 0 <= i < |StyleTable| && StyleTable[i].0 == name ==> s == StyleTable[i].1
  {
    assert forall i, j :: 0 <= i < j < |StyleTable| ==> StyleTable[i].0 != StyleTable[j].0;
    StyleIn(StyleTable, name)
  }

  /** The order of the result: higher counts first, equal counts by name. */
  predicate ListedBefore(a: CategoryWithCount, b: CategoryWithCount)
  {
    a.count > b.count || (a.count == b.count && LexLe(a.name, b.name))
  }

  lemma ListedBeforeTotalPreorder()
    ensures Total(ListedBefore) && Transitive(ListedBefore)
  {
    forall a: CategoryWithCount, b: CategoryWithCount ensures ListedBefore(a, b) || ListedBefore(b, a) {
      LexLeTotal(a.name, b.name);
    }
    forall a: CategoryWithCount, b: CategoryWithCount, c: CategoryWithCount
      | ListedBefore(a, b) && ListedBefore(b, c)
      ensures ListedBefore(a, c)
    {
      if a.count == b.count == c.count {
        LexLeTransitive(a.name, b.name, c.name);
      }
    }
  }

  /** The entry `Object.entries` yields for a category, decorated with
      its style. */
  function Entry(name: string, count: nat): (e: CategoryWithCount)
    ensures e.name == name && e.count == count
    ensures e.icon == StyleOf(name).icon && e.color == StyleOf(name).color
  {
    var style := StyleOf(name);
    CategoryWithCount(name, count, style.icon, style.color)
  }

  function Entries(counts: map<string, nat>, names: seq<string>): (r: seq<CategoryWithCount>)
    requires forall i :: 0 <= i < |names| ==> names[i] in counts
    ensures |r| == |names|
    ensures forall i :: 0 <= i < |r| ==> r[i] == Entry(names[i], counts[names[i]])
  {
    seq(|names|, i requires 0 <= i < |names| => Entry(names[i], counts[names[i]]))
  }

  /** `getCategoriesWithCounts`' pure part: tally the rows, decorate each
      category in first-occurrence order, then sort. */
  function CategoriesWithCounts(column: seq<Option<string>>): (r: seq<CategoryWithCount>)
    ensures |r| == |Distinct(column)|
  {
    TallyCounts(column);
    Sort(Entries(Tally(column), Distinct(column)), ListedBefore)
  }

  /** The sum of the listed counts. */
  function TotalCount(s: seq<CategoryWithCount>): nat
  {
    if |s| == 0 then 0 else s[0].count + TotalCount(s[1..])
  }

  lemma {:induction false} TotalCountInsert(x: CategoryWithCount, s: seq<CategoryWithCount>)
    ensures TotalCount(Insert(x, s, ListedBefore)) == x.count + TotalCount(s)
    decreases |s|
  {
    if |s| > 0 && !ListedBefore(x, s[0]) {
      TotalCountInsert(x, s[1..]);
    }
  }

  lemma {:induction false} TotalCountSort(s: seq<CategoryWithCount>)
    ensures TotalCount(Sort(s, ListedBefore)) == TotalCount(s)
    decreases |s|
  {
    if |s| > 0 {
      TotalCountSort(s[1..]);
      TotalCountInsert(s[0], Sort(s[1..], ListedBefore));
    }
  }

  lemma {:induction false} TotalCountEntries(column: seq<Option<string>>, names: seq<string>)
    requires forall i :: 0 <= i < |names| ==> names[i] in Tally(column)
    requires forall name :: name in Tally(column) ==> Tally(column)[name] == Count(column, name)
    ensures TotalCount(Entries(Tally(column), names)) == SumCounts(column, names)
    decreases |names|
  {
    if |names| > 0 {
      TotalCountEntries(column, names[1..]);
      assert Entries(Tally(column), names)[1..] == Entries(Tally(column), names[1..]);
    }
  }

  /** The unsorted entries: one per distinct category, in first-occurrence
      order, each with its row count. */
  lemma EntriesSpec(column: seq<Option<string>>)
    ensures forall i :: 0 <= i < |Distinct(column)| ==> Distinct(column)[i] in Tally(column)
    ensures var entries := Entries(Tally(column), Distinct(column));
      && (forall i :: 0 <= i < |entries| ==> entries[i] == Entry(Distinct(column)[i], Count(column, Distinct(column)[i])))
      && NoDuplicates(entries)
  {
    TallyCounts(column);
    DistinctSpec(column);
  }

  lemma EntriesContents(column: seq<Option<string>>)
    ensures forall i :: 0 <= i < |Distinct(column)| ==> Distinct(column)[i] in Tally(column)
    ensures var entries := Entries(Tally(column), Distinct(column));
      && (forall name :: (exists e :: e in entries && e.name == name) <==> name != "" && Some(name) in column)
      && (forall e :: e in entries ==> e == Entry(e.name, Count(column, e.name)))
  {
    EntriesSpec(column);
    DistinctSpec(column);
    var names := Distinct(column);
    var entries := Entries(Tally(column), names);
    forall name | name != "" && Some(name) in column ensures exists e :: e in entries && e.name == name {
      var k :| 0 <= k < |names| && names[k] == name;
      assert entries[k] in entries;
    }
  }

  /** The listed categories are exactly the present ones, each with its
      row count and style. */
  lemma CategoriesWithCountsContents(column: seq<Option<string>>)
    ensures var r := CategoriesWithCounts(column);
      && (forall name :: (exists e :: e in r && e.name == name) <==> name != "" && Some(name) in column)
      && (forall e :: e in r ==> e == Entry(e.name, Count(column, e.name)))
  {
    EntriesContents(column);
    SortSameElements(Entries(Tally(column), Distinct(column)), ListedBefore);
  }

  /** The list is ordered by count descending then name ascending, and no
      category appears twice. */
  lemma CategoriesWithCountsOrdered(column: seq<Option<string>>)
    ensures NoDuplicates(CategoriesWithCounts(column))
    ensures SortedBy(CategoriesWithCounts(column), ListedBefore)
  {
    EntriesSpec(column);
    var entries := Entries(Tally(column), Distinct(column));
    ListedBeforeTotalPreorder();
    SortSorted(entries, ListedBefore);
    NoDuplicatesPermutation(entries, Sort(entries, ListedBefore));
  }

  /** The counts add up to the number of rows with a present category. */
  lemma CategoriesWithCountsTotal(column: seq<Option<string>>)
    ensures TotalCount(CategoriesWithCounts(column)) == CountPresent(column)
  {
    TallyCounts(column);
    var entries := Entries(Tally(column), Distinct(column));
    TotalCountEntries(column, Distinct(column));
    TotalCountSort(entries);
    CountsSumToRows(column);
  }

  lemma {:induction false} AtMostOnce<T>(a: seq<T>, x: T)
    requires NoDuplicates(a)
    ensures multiset(a)[x] <= 1
    decreases |a|
  {
    if |a| > 0 {
      assert a == [a[0]] + a[1..];
      AtMostOnce(a[1..], x);
      if a[0] == x {
        assert x !in a[1..];
      }
    }
  }

  /** Reordering cannot create a duplicate. */
  lemma NoDuplicatesPermutation<T>(a: seq<T>, b: seq<T>)
    requires multiset(a) == multiset(b) && NoDuplicates(a)
    ensures NoDuplicates(b)
  {
    forall i, j | 0 <= i < j < |b| ensures b[i] != b[j] {
      AtMostOnce(a, b[i]);
      assert b == b[..i] + [b[i]] + b[i + 1..j] + [b[j]] + b[j + 1..];
      assert multiset(b)[b[i]] >= 1 + (if b[j] == b[i] then 1 else 0);
    }
  }
}

=== FILE: chat_catalog.dfy ===
/** The fixed tables the chatbot panel renders from
    (src/components/RecommendedQuestions.tsx): menu questions, categories
    and their curated products, featured products, addable products,
    payment methods, sample orders and the starting cart. Icons, colours
    and product images of the grids are presentation and are dropped. */
module ChatCatalog {
  import opened Wrappers
  import opened Cart

  // Menu question texts, in table order.
  const BrowseProductsText: string := "ดูสินค้า"
  const SearchProductsText: string := "ค้นหาสินค้า"
  const PlaceOrderText: string := "สั่งซื้อ"
  const HowToBuyText: string := "ถามวิธีซื้อ"
  const TrackOrderText: string := "ติดตามออเดอร์"

  const Questions: seq<string> := [BrowseProductsText, SearchProductsText, PlaceOrderText, HowToBuyText, TrackOrderText]

  /** The menu renders only the first four questions. */
  const MenuButtonCount: nat := 4

  /** The text the "show more" link forwards. */
  const ShowMoreText: string := "ดูตัวเลือกเพิ่มเติม"

  /** Prefix of the "show me the details of ..." request. */
  const DetailsPrefix: string := "ขอดูรายละเอียด"

  /** Prefix of the order confirmation request. */
  const ConfirmPrefix: string := "ยืนยันการสั่งซื้อด้วยการ"

  /** Prefix of the order tracking request. */
  const TrackPrefix: string := "ติดตามออเดอร์ "

  /** The alert shown when confirming without a payment method. */
  const ChoosePaymentAlert: string := "กรุณาเลือกวิธีการชำระเงิน"

  /** What a missing value prints as inside a JavaScript template string. */
  const UndefinedText: string := "undefined"

  datatype Category = Category(emoji: string, name: string, description: string)

  const Categories: seq<Category> := [
    Category("🥬", "Fresh vegetables", "ผักสดใหม่จากเกษตรกร"),
    Category("🍌", "Fruits", "ผลไม้หวานฉ่ำ"),
    Category("🌾", "Rice", "ข้าวคุณภาพดี"),
    Category("🥚", "Chicken eggs", "ไข่ไก่สดใหม่"),
    Category("❄️", "Out-of-season products", "สินค้านอกฤดูกาล")
  ]

  function CategoryNames(): (names: seq<string>)
    ensures |names| == |Categories|
  {
    seq(|Categories|, i requires 0 <= i < |Categories| => Categories[i].name)
  }

  /** A curated entry of a category: English name, Thai name, price, unit. */
  datatype CategoryProduct = CategoryProduct(name: string, thai: string, price: int, unit: string)

  /** `categoryProducts[category] || []`: the curated list of a category,
      empty for a name the table does not know. */
  function CategoryProducts(category: string): seq<CategoryProduct>
  {
    if category == "Fresh vegetables" then [
      CategoryProduct("Kale", "คะน้า", 35, "ถุง"),
      CategoryProduct("Morning glory", "ผักบุ้ง", 25, "ถุง"),
      CategoryProduct("Chinese water spinach", "ผักกาดขาว", 30, "ถุง"),
      CategoryProduct("Coriander", "ผักชี", 20, "ถุง"),
      CategoryProduct("Spring Onion", "ต้นหอม", 15, "ถุง"),
      CategoryProduct("Sweet basil", "โหระพา", 18, "ถุง")]
    else if category == "Fruits" then [
      CategoryProduct("Mango", "มะม่วง", 120, "กก."),
      CategoryProduct("Banana", "กล้วย", 60, "หวี"),
      CategoryProduct("Papaya", "มะละกอ", 40, "ลูก"),
      CategoryProduct("Dragon fruit", "แก้วมังกร", 80, "กก."),
      CategoryProduct("Pineapple", "สับปะรด", 50, "ลูก"),
      CategoryProduct("Coconut", "มะพร้าว", 25, "ลูก")]
    else if category == "Rice" then [
      CategoryProduct("Jasmine rice", "ข้าวหอมมะลิ", 45, "กก."),
      CategoryProduct("Brown rice", "ข้าวกล้อง", 55, "กก."),
      CategoryProduct("Sticky rice", "ข้าวเหนียว", 50, "กก."),
      CategoryProduct("Red rice", "ข้าวแดง", 65, "กก."),
      CategoryProduct("Black rice", "ข้าวดำ", 75, "กก."),
      CategoryProduct("Organic rice", "ข้าวออร์แกนิค", 85, "กก.")]
    else if category == "Chicken eggs" then [
      CategoryProduct("Free-range eggs", "ไข่ไก่เลี้ยงแบบปล่อย", 120, "แผง"),
      CategoryProduct("Organic eggs", "ไข่ไก่ออร์แกนิค", 150, "แผง"),
      CategoryProduct("Farm fresh eggs", "ไข่ไก่สดจากฟาร์ม", 100, "แผง"),
      CategoryProduct("Brown eggs", "ไข่ไก่สีน้ำตาล", 110, "แผง"),
      CategoryProduct("Duck eggs", "ไข่เป็ด", 80, "แผง"),
      CategoryProduct("Quail eggs", "ไข่นกกระทา", 60, "แผง")]
    else if category == "Out-of-season products" then [
      CategoryProduct("Winter strawberries", "สตรอเบอร์รี่นอกฤดู", 200, "กล่อง"),
      CategoryProduct("Summer durian", "ทุเรียนนอกฤดู", 300, "กก."),
      CategoryProduct("Winter longan", "ลำไยนอกฤดู", 180, "กก."),
      CategoryProduct("Summer lychee", "ลิ้นจี่นอกฤดู", 220, "กก."),
      CategoryProduct("Winter rambutan", "เงาะนอกฤดู", 160, "กก."),
      CategoryProduct("Summer mangosteen", "มังคุดนอกฤดู", 250, "กก.")]
    else []
  }

  /** A product of the featured grid; the rating is kept in tenths. */
  datatype FeaturedProduct = FeaturedProduct(
    id: int, name: string, price: int, unit: string, farmer: string,
    location: string, ratingTenths: int, inStock: bool)

  const FeaturedProducts: seq<FeaturedProduct> := [
    FeaturedProduct(1, "มะม่วงน้ำดอกไม้", 120, "กก.", "สวนป้าสมใจ", "จ.เชียงใหม่", 48, true),
    FeaturedProduct(2, "ผักกาดหอมออร์แกนิค", 45, "ถุง", "ฟาร์มสีเขียว", "จ.นครปฐม", 49, true),
    FeaturedProduct(3, "มะเขือเทศราชินี", 80, "กก.", "เกษตรกรรุ่นใหม่", "จ.เพชรบุรี", 47, false),
    FeaturedProduct(4, "กล้วยหอมทอง", 60, "หวี", "สวนลุงประสิทธิ์", "จ.ระยอง", 46, true),
    FeaturedProduct(5, "แครอทเบบี้", 95, "กก.", "ฟาร์มคุณแม่", "จ.เลย", 48, true),
    FeaturedProduct(6, "ส้มโอขาวน้ำหวาน", 150, "ลูก", "สวนส้มโอนครปฐม", "จ.นครปฐม", 49, false)
  ]

  /** Grids show at most this many products. */
  const GridSize: nat := 4

  const AddableProducts: seq<CatalogEntry> := [
    CatalogEntry(7, "ข้าวหอมมะลิ", 45, "กก.", "https://images.pexels.com/photos/1656663/pexels-photo-1656663.jpeg?auto=compress&cs=tinysrgb&w=300"),
    CatalogEntry(8, "ไข่ไก่สด", 120, "แผง", "https://images.pexels.com/photos/1656663/pexels-photo-1656663.jpeg?auto=compress&cs=tinysrgb&w=300"),
    CatalogEntry(9, "มะเขือเทศ", 80, "กก.", "https://images.pexels.com/photos/533280/pexels-photo-533280.jpeg?auto=compress&cs=tinysrgb&w=300"),
    CatalogEntry(10, "แครอท", 95, "กก.", "https://images.pexels.com/photos/143133/pexels-photo-143133.jpeg?auto=compress&cs=tinysrgb&w=300")
  ]

  datatype PaymentMethod = PaymentMethod(id: string, name: string, description: string)

  const PaymentMethods: seq<PaymentMethod> := [
    PaymentMethod("credit_card", "บัตรเครดิต/เดบิต", "Visa, Mastercard, JCB"),
    PaymentMethod("bank_transfer", "โอนผ่านธนาคาร", "ธนาคารไทยพาณิชย์, กสิกรไทย, กรุงเทพ"),
    PaymentMethod("cod", "เก็บเงินปลายทาง", "ชำระเมื่อได้รับสินค้า")
  ]

  /** The order summary offers only the first two payment methods. */
  const PaymentChoices: nat := 2

  function SelectablePaymentIds(): (ids: seq<string>)
    ensures |ids| == PaymentChoices
  {
    seq(PaymentChoices, i requires 0 <= i < PaymentChoices => PaymentMethods[i].id)
  }

  /** `paymentMethods.find(p => p.id === id)?.name`. */
  function PaymentMethodName(id: string): (r: Option<string>)
    ensures r.Some? <==> exists i :: 0 <= i < |PaymentMethods| && PaymentMethods[i].id == id
    ensures r.Some? ==> exists i :: 0 <= i < |PaymentMethods| && PaymentMethods[i].id == id && PaymentMethods[i].name == r.value
  {
    FindMethod(PaymentMethods, id)
  }

  /** Index `i` holds the first method with the given id. */
  predicate FirstWithId(methods: seq<PaymentMethod>, id: string, i: int)
  {
    && 0 <= i < |methods| && methods[i].id == id
    && forall j :: 0 <= j < i ==> methods[j].id != id
  }

  /** `find` by id: the name of the first method with that id. */
  function FindMethod(methods: seq<PaymentMethod>, id: string): (r: Option<string>)
    ensures r.Some? <==> exists i :: 0 <= i < |methods| && methods[i].id == id
    ensures r.Some? ==> exists i :: FirstWithId(methods, id, i) && methods[i].name == r.value
  {
    if |methods| == 0 then None
    else if methods[0].id == id then
      assert FirstWithId(methods, id, 0);
      Some(methods[0].name)
    else
      var r := FindMethod(methods[1..], id);
      assert forall i :: 0 < i < |methods| ==> methods[i] == methods[1..][i - 1];
      assert r.Some? ==> exists i :: 0 <= i < |methods[1..]| && methods[1..][i].id == id;
      assert r.Some? ==> exists i :: FirstWithId(methods, id, i) && methods[i].name == r.value by {
        if r.Some? {
          var k :| FirstWithId(methods[1..], id, k) && methods[1..][k].name == r.value;
          assert FirstWithId(methods, id, k + 1);
        }
      }
      r
  }

  datatype OrderStatus = Delivered | Shipping | PendingPayment
  datatype PaymentStatus = Paid | Pending
  datatype OrderLine = OrderLine(name: string, quantity: int, price: int)
  datatype Order = Order(id: string, status: OrderStatus, items: seq<OrderLine>, total: int, orderDate: string, paymentStatus: PaymentStatus)

  const Orders: seq<Order> := [
    Order("ORD-2024-001", Delivered, [OrderLine("มะม่วงน้ำดอกไม้", 2, 120), OrderLine("ผักกาดหอมออร์แกนิค", 3, 45)], 375, "2024-01-15", Paid),
    Order("ORD-2024-002", Shipping, [OrderLine("กล้วยหอมทอง", 1, 60), OrderLine("แครอทเบบี้", 2, 95)], 250, "2024-01-18", Paid),
    Order("ORD-2024-003", PendingPayment, [OrderLine("ข้าวหอมมะลิ", 5, 45)], 225, "2024-01-19", Pending)
  ]

  /** The tracking view lists only the first two orders. */
  const TrackedOrderCount: nat := 2

  const PayNowLabel: string := "ชำระเงิน"
  const ViewDetailsLabel: string := "ดูรายละเอียด"

  /** The tracking button's label is chosen by payment status alone. */
  function TrackingLabel(o: Order): (caption: string)
    ensures caption == PayNowLabel <==> o.paymentStatus == Pending
  {
    if o.paymentStatus == Pending then PayNowLabel else ViewDetailsLabel
  }

  /** The cart the panel starts with. */
  const InitialCart: seq<CartItem> := [
    CartItem(1, "มะม่วงน้ำดอกไม้", 120, "กก.", 2, "https://images.pexels.com/photos/2294471/pexels-photo-2294471.jpeg?auto=compress&cs=tinysrgb&w=300"),
    CartItem(2, "ผักกาดหอมออร์แกนิค", 45, "ถุง", 3, "https://images.pexels.com/photos/1656663/pexels-photo-1656663.jpeg?auto=compress&cs=tinysrgb&w=300"),
    CartItem(4, "กล้วยหอมทอง", 60, "หวี", 1, "https://images.pexels.com/photos/2872755/pexels-photo-2872755.jpeg?auto=compress&cs=tinysrgb&w=300")
  ]

  /** The starting cart satisfies the ledger invariants and shows a
      subtotal of 435 and a total of 485. */
  lemma InitialCartTotals()
    ensures Valid(InitialCart)
    ensures Subtotal(InitialCart) == 435 && Total(InitialCart) == 485
  {
    assert Subtotal(InitialCart[2..]) == 60;
    assert Subtotal(InitialCart[1..]) == 135 + 60;
  }

  /** No listed order can be paid from the tracking view: the only order
      awaiting payment is the third, and only two are listed. */
  lemma ListedOrdersOfferNoPayment()
    ensures forall i :: 0 <= i < TrackedOrderCount ==> TrackingLabel(Orders[i]) == ViewDetailsLabel
    ensures TrackingLabel(Orders[2]) == PayNowLabel
  {
  }

  /** The rendered menu omits the order-tracking question. */
  lemma MenuOmitsTracking()
    ensures TrackOrderText in Questions
    ensures TrackOrderText !in Questions[..MenuButtonCount]
  {
    assert Questions[..MenuButtonCount] == [BrowseProductsText, SearchProductsText, PlaceOrderText, HowToBuyText];
  }
}

=== FILE: lists.dfy ===
/** `Array.prototype.filter` and the facts about it the model relies on. */
module Lists {

  /** The elements of `s` that `keep` accepts, in their original order. */
  function Keep<T>(s: seq<T>, keep: T -> bool): (r: seq<T>)
    ensures |r| <= |s|
    ensures forall x :: x in r ==> x in s && keep(x)
    decreases |s|
  {
    if |s| == 0 then []
    else if keep(s[0]) then [s[0]] + Keep(s[1..], keep)
    else Keep(s[1..], keep)
  }

  /** Filtering keeps every accepted copy and drops every rejected one. */
  lemma {:induction false} KeepCounts<T>(s: seq<T>, keep: T -> bool, x: T)
    ensures multiset(Keep(s, keep))[x] == if keep(x) then multiset(s)[x] else 0
    decreases |s|
  {
    if |s| > 0 {
      KeepCounts(s[1..], keep, x);
      assert s == [s[0]] + s[1..];
    }
  }

  /** So the result invents and duplicates nothing. */
  lemma KeepSubMultiset<T>(s: seq<T>, keep: T -> bool)
    ensures multiset(Keep(s, keep)) <= multiset(s)
  {
    forall x ensures multiset(Keep(s, keep))[x] <= multiset(s)[x] {
      KeepCounts(s, keep, x);
    }
  }

  /** An accepting filter changes nothing. */
  lemma {:induction false} KeepAll<T>(s: seq<T>, keep: T -> bool)
    requires forall i :: 0 <= i < |s| ==> keep(s[i])
    ensures Keep(s, keep) == s
    decreases |s|
  {
    if |s| > 0 {
      KeepAll(s[1..], keep);
      assert s == [s[0]] + s[1..];
    }
  }

  /** Two filters in a row are one filter by the conjunction. */
  lemma {:induction false} KeepKeep<T>(s: seq<T>, a: T -> bool, b: T -> bool, both: T -> bool)
    requires forall x :: both(x) == (a(x) && b(x))
    ensures Keep(Keep(s, a), b) == Keep(s, both)
    decreases |s|
  {
    if |s| > 0 {
      KeepKeep(s[1..], a, b, both);
    }
  }

  /** Filters that accept the same elements give the same result. */
  lemma {:induction false} KeepSame<T>(s: seq<T>, a: T -> bool, b: T -> bool)
    requires forall x :: a(x) == b(x)
    ensures Keep(s, a) == Keep(s, b)
    decreases |s|
  {
    if |s| > 0 {
      KeepSame(s[1..], a, b);
    }
  }

  /** A filter that runs only when `active`, as the stages guarded by an
      `if` are. */
  function Stage<T>(s: seq<T>, active: bool, keep: T -> bool): (r: seq<T>)
    ensures |r| <= |s|
    ensures forall x :: x in r ==> x in s
  {
    if active then Keep(s, keep) else s
  }

  /** A guarded stage after a filter is one filter. */
  lemma StageAfterKeep<T>(s: seq<T>, before: T -> bool, active: bool, keep: T -> bool, both: T -> bool)
    requires forall x :: both(x) == (before(x) && (!active || keep(x)))
    ensures Stage(Keep(s, before), active, keep) == Keep(s, both)
  {
    if active {
      KeepKeep(s, before, keep, both);
    } else {
      KeepSame(s, before, both);
    }
  }
}

=== FILE: navigator.dfy ===
/** The chatbot panel of src/components/RecommendedQuestions.tsx as a state
    machine. The state keeps the source's five independent `show*` flags
    and its two selection strings; the rendered view is derived from them by
    the component's chain of `if` statements. The at-most-one-panel property
    is therefore a theorem about the states the rendered controls can reach,
    not a consequence of the encoding. */
module Navigator {
  import opened Wrappers
  import opened Cart
  import opened ChatCatalog

  datatype Panel = Panel(
    showProducts: bool,
    showCategories: bool,
    showCategoryProducts: bool,
    showOrderSummary: bool,
    showOrderTracking: bool,
    selectedCategory: string,
    selectedPaymentMethod: string)

  datatype Session = Session(panel: Panel, cart: seq<CartItem>)

  /** What a handler hands to the surrounding chat: nothing, a message for
      `onQuestionClick`, or a browser alert. */
  datatype Effect = Silent | Send(text: string) | Alert(text: string)

  datatype Outcome = Outcome(session: Session, effect: Effect)

  const InitialPanel: Panel := Panel(false, false, false, false, false, "", "")

  const Initial: Session := Session(InitialPanel, InitialCart)

  /** The four texts `handleQuestionClick` turns into a panel switch. */
  const Intents: seq<string> := [BrowseProductsText, SearchProductsText, PlaceOrderText, TrackOrderText]

  function FlagCount(p: Panel): nat
  {
    (if p.showProducts then 1 else 0) + (if p.showCategories then 1 else 0)
    + (if p.showCategoryProducts then 1 else 0) + (if p.showOrderSummary then 1 else 0)
    + (if p.showOrderTracking then 1 else 0)
  }

  predicate AtMostOnePanel(p: Panel)
  {
    FlagCount(p) <= 1
  }

  /** The panel the component renders. */
  datatype View =
    | Menu
    | ProductGrid
    | CategoryGrid
    | CategoryProductGrid(category: string)
    | EmptyCart
    | OrderSummary
    | OrderTracking

  /** The render chain: tracking, then summary (or its empty-cart notice),
      then category products when a category is selected, then categories,
      then products, and the question menu otherwise. */
  function ViewOf(s: Session): View
  {
    var p := s.panel;
    if p.showOrderTracking then OrderTracking
    else if p.showOrderSummary then (if |s.cart| == 0 then EmptyCart else OrderSummary)
    else if p.showCategoryProducts && p.selectedCategory != "" then CategoryProductGrid(p.selectedCategory)
    else if p.showCategories then CategoryGrid
    else if p.showProducts then ProductGrid
    else Menu
  }

  function WithFlags(s: Session, products: bool, categories: bool, categoryProducts: bool, summary: bool, tracking: bool): Session
  {
    s.(panel := s.panel.(showProducts := products, showCategories := categories,
                         showCategoryProducts := categoryProducts, showOrderSummary := summary,
                         showOrderTracking := tracking))
  }

  /** `handleQuestionClick`: the four intents each open their own panel and
      close the other four; any other text is forwarded unchanged. */
  function HandleQuestionClick(s: Session, text: string): (o: Outcome)
    ensures text in Intents ==> FlagCount(o.session.panel) == 1 && o.effect == Silent
    ensures text in Intents ==> o.session.cart == s.cart
    ensures text in Intents ==> o.session.panel.selectedCategory == s.panel.selectedCategory
    ensures text in Intents ==> o.session.panel.selectedPaymentMethod == s.panel.selectedPaymentMethod
    ensures text == BrowseProductsText ==> ViewOf(o.session) == ProductGrid
    ensures text == SearchProductsText ==> ViewOf(o.session) == CategoryGrid
    ensures text == PlaceOrderText ==> ViewOf(o.session) == (if |s.cart| == 0 then EmptyCart else OrderSummary)
    ensures text == TrackOrderText ==> ViewOf(o.session) == OrderTracking
    ensures text !in Intents ==> o == Outcome(s, Send(text))
  {
    if text == BrowseProductsText then Outcome(WithFlags(s, true, false, false, false, false), Silent)
    else if text == SearchProductsText then Outcome(WithFlags(s, false, true, false, false, false), Silent)
    else if text == PlaceOrderText then Outcome(WithFlags(s, false, false, false, true, false), Silent)
    else if text == TrackOrderText then Outcome(WithFlags(s, false, false, false, false, true), Silent)
    else Outcome(s, Send(text))
  }

  /** `handleBackToQuestions`: back to the menu, forgetting both selections
      but not the cart. */
  function HandleBackToQuestions(s: Session): (r: Session)
    ensures ViewOf(r) == Menu && FlagCount(r.panel) == 0
    ensures r.panel == InitialPanel
    ensures r.cart == s.cart
  {
    Session(Panel(false, false, false, false, false, "", ""), s.cart)
  }

  /** `handleBackToCategories`: from a category's products back to the
      category grid; the payment selection is left alone. */
  function HandleBackToCategories(s: Session): (r: Session)
    ensures ViewOf(r) == (if s.panel.showOrderTracking then OrderTracking
                          else if s.panel.showOrderSummary then ViewOf(s)
                          else CategoryGrid)
    ensures r.panel.selectedCategory == "" && !r.panel.showCategoryProducts
    ensures r.panel.selectedPaymentMethod == s.panel.selectedPaymentMethod && r.cart == s.cart
    ensures r.panel.showCategories
    ensures r.panel.showProducts == s.panel.showProducts
    ensures r.panel.showOrderSummary == s.panel.showOrderSummary
    ensures r.panel.showOrderTracking == s.panel.showOrderTracking
  {
    s.(panel := s.panel.(showCategoryProducts := false, showCategories := true, selectedCategory := ""))
  }

  /** `handleProductClick`: a sold-out product is inert; otherwise the
      details request is sent and only the product grid is closed. */
  function HandleProductClick(s: Session, p: FeaturedProduct): (o: Outcome)
    ensures !p.inStock ==> o == Outcome(s, Silent)
    ensures p.inStock ==> o.effect == Send(DetailsPrefix + p.name)
    ensures p.inStock ==> o.session == s.(panel := s.panel.(showProducts := false))
  {
    if !p.inStock then Outcome(s, Silent)
    else Outcome(s.(panel := s.panel.(showProducts := false)), Send(DetailsPrefix + p.name))
  }

  /** `handleCategoryClick`: remembers the category and swaps the category
      grid for that category's products. */
  function HandleCategoryClick(s: Session, c: Category): (r: Session)
    ensures r.panel.selectedCategory == c.name
    ensures r.panel.showCategoryProducts && !r.panel.showCategories
    ensures r.panel.showProducts == s.panel.showProducts
    ensures r.panel.showOrderSummary == s.panel.showOrderSummary
    ensures r.panel.showOrderTracking == s.panel.showOrderTracking
    ensures c.name != "" && !s.panel.showOrderTracking && !s.panel.showOrderSummary ==>
              ViewOf(r) == CategoryProductGrid(c.name)
    ensures r.panel.selectedPaymentMethod == s.panel.selectedPaymentMethod && r.cart == s.cart
  {
    s.(panel := s.panel.(selectedCategory := c.name, showCategoryProducts := true, showCategories := false))
  }

  /** `handleCategoryProductClick`: sends the Thai and English names and
      closes the grid, but keeps `selectedCategory`. */
  function HandleCategoryProductClick(s: Session, cp: CategoryProduct): (o: Outcome)
    ensures o.effect == Send(DetailsPrefix + cp.thai + " (" + cp.name + ")")
    ensures !o.session.panel.showCategoryProducts
    ensures o.session.panel.selectedCategory == s.panel.selectedCategory
    ensures o.session == s.(panel := s.panel.(showCategoryProducts := false))
  {
    Outcome(s.(panel := s.panel.(showCategoryProducts := false)),
            Send(DetailsPrefix + cp.thai + " (" + cp.name + ")"))
  }

  /** The order-summary radio choice (`setSelectedPaymentMethod`). */
  function SelectPaymentMethod(s: Session, id: string): (r: Session)
    ensures r.panel.selectedPaymentMethod == id && ViewOf(r) == ViewOf(s) && r.cart == s.cart
    ensures r.panel.showCategories == s.panel.showCategories
    ensures r.panel.showCategoryProducts == s.panel.showCategoryProducts
    ensures r.panel.showProducts == s.panel.showProducts
    ensures r.panel.showOrderSummary == s.panel.showOrderSummary
    ensures r.panel.showOrderTracking == s.panel.showOrderTracking
    ensures r.panel.selectedCategory == s.panel.selectedCategory
  {
    s.(panel := s.panel.(selectedPaymentMethod := id))
  }

  /** `handleConfirmOrder`: without a payment method it only alerts; with
      one it sends a confirmation naming the method (or "undefined" when
      the id is unknown) and closes the summary, keeping the cart and the
      chosen method. */
  function HandleConfirmOrder(s: Session): (o: Outcome)
    ensures s.panel.selectedPaymentMethod == "" ==> o == Outcome(s, Alert(ChoosePaymentAlert))
    ensures s.panel.selectedPaymentMethod != "" ==>
              o.effect == Send(ConfirmPrefix + PaymentMethodName(s.panel.selectedPaymentMethod).GetOr(UndefinedText))
    ensures s.panel.selectedPaymentMethod != "" ==> o.session == s.(panel := s.panel.(showOrderSummary := false))
  {
    var chosen := s.panel.selectedPaymentMethod;
    if chosen == "" then Outcome(s, Alert(ChoosePaymentAlert))
    else Outcome(s.(panel := s.panel.(showOrderSummary := false)),
                 Send(ConfirmPrefix + PaymentMethodName(chosen).GetOr(UndefinedText)))
  }

  /** `handleOrderTracking`: only forwards a tracking request. */
  function HandleOrderTracking(s: Session, orderId: string): (o: Outcome)
    ensures o.session == s && o.effect == Send(TrackPrefix + orderId)
  {
    Outcome(s, Send(TrackPrefix + orderId))
  }

  /** The controls a shopper can press, plus the three ledger operations,
      which the component defines but wires to no rendered control. */
  datatype Action =
    | Question(text: string)
    | ShowMore
    | Back
    | BackToCategories
    | PickProduct(product: FeaturedProduct)
    | PickCategory(category: Category)
    | PickCategoryProduct(entry: CategoryProduct)
    | PickPayment(methodId: string)
    | Confirm
    | Track(orderId: string)
    | AddItem(addable: CatalogEntry)
    | SetItemQuantity(itemId: int, quantity: int)
    | RemoveItem(removedId: int)

  function Take<T>(s: seq<T>, n: nat): (r: seq<T>)
    ensures |r| == if |s| <= n then |s| else n
    ensures r == s[..|r|]
  {
    if |s| <= n then s else s[..n]
  }

  /** The control for `a` is rendered in the current view (and enabled:
      the confirm button is disabled until a method is chosen). */
  predicate Enabled(s: Session, a: Action)
  {
    var v := ViewOf(s);
    match a
    case Question(t) => (v == Menu && t in Questions[..MenuButtonCount]) || (v == EmptyCart && t == BrowseProductsText)
    case ShowMore => v == Menu
    case Back => v != Menu && !v.CategoryProductGrid?
    case BackToCategories => v.CategoryProductGrid?
    case PickProduct(p) => v == ProductGrid && p in Take(FeaturedProducts, GridSize)
    case PickCategory(c) => v == CategoryGrid && c in Categories
    case PickCategoryProduct(cp) => v.CategoryProductGrid? && cp in Take(CategoryProducts(v.category), GridSize)
    case PickPayment(id) => v == OrderSummary && id in SelectablePaymentIds()
    case Confirm => v == OrderSummary && s.panel.selectedPaymentMethod != ""
    case Track(id) => v == OrderTracking && exists i :: 0 <= i < TrackedOrderCount && Orders[i].id == id
    case AddItem(_) => true
    case SetItemQuantity(_, _) => true
    case RemoveItem(_) => true
  }

  function Apply(s: Session, a: Action): Outcome
  {
    match a
    case Question(t) => HandleQuestionClick(s, t)
    case ShowMore => Outcome(s, Send(ShowMoreText))
    case Back => Outcome(HandleBackToQuestions(s), Silent)
    case BackToCategories => Outcome(HandleBackToCategories(s), Silent)
    case PickProduct(p) => HandleProductClick(s, p)
    case PickCategory(c) => Outcome(HandleCategoryClick(s, c), Silent)
    case PickCategoryProduct(cp) => HandleCategoryProductClick(s, cp)
    case PickPayment(id) => Outcome(SelectPaymentMethod(s, id), Silent)
    case Confirm => HandleConfirmOrder(s)
    case Track(id) => HandleOrderTracking(s, id)
    case AddItem(e) => Outcome(s.(cart := AddToCart(s.cart, e)), Silent)
    case SetItemQuantity(id, q) => Outcome(s.(cart := UpdateQuantity(s.cart, id, q)), Silent)
    case RemoveItem(id) => Outcome(s.(cart := RemoveFromCart(s.cart, id)), Silent)
  }

  /** Every action of `acts` is enabled when it is taken. */
  predicate ValidTrace(s: Session, acts: seq<Action>)
    decreases |acts|
  {
    |acts| == 0 || (Enabled(s, acts[0]) && ValidTrace(Apply(s, acts[0]).session, acts[1..]))
  }

  function Run(s: Session, acts: seq<Action>): Session
    decreases |acts|
  {
    if |acts| == 0 then s else Run(Apply(s, acts[0]).session, acts[1..])
  }

  /** What holds of every state the rendered controls can reach. */
  predicate Inv(s: Session)
  {
    var p := s.panel;
    && AtMostOnePanel(p)
    && !p.showOrderTracking
    && (p.selectedCategory == "" || p.selectedCategory in CategoryNames())
    && (p.showCategoryProducts ==> p.selectedCategory != "")
    && (p.selectedPaymentMethod == "" || p.selectedPaymentMethod in SelectablePaymentIds())
    && Valid(s.cart)
  }

  lemma CategoryNamesNonEmpty()
    ensures "" !in CategoryNames()
    ensures forall c :: c in Categories ==> c.name in CategoryNames()
  {
    assert CategoryNames() == ["Fresh vegetables", "Fruits", "Rice", "Chicken eggs", "Out-of-season products"];
  }

  lemma {:induction false} InvInductive(s: Session, a: Action)
    requires Inv(s) && Enabled(s, a)
    ensures Inv(Apply(s, a).session)
  {
    if a.AddItem? || a.SetItemQuantity? || a.RemoveItem? {
      LedgerStepKeepsInv(s, a);
    } else if a.Question? {
      QuestionKeepsInv(s, a.text);
    } else {
      PanelStepKeepsInv(s, a);
    }
  }

  /** The ledger operations touch only the cart, and keep it valid. */
  lemma LedgerStepKeepsInv(s: Session, a: Action)
    requires Inv(s) && (a.AddItem? || a.SetItemQuantity? || a.RemoveItem?)
    ensures Inv(Apply(s, a).session)
  {
    if a.RemoveItem? {
      RemoveFromCartValid(s.cart, a.removedId);
    }
  }

  /** A rendered menu question never opens order tracking. */
  lemma QuestionKeepsInv(s: Session, t: string)
    requires Inv(s) && Enabled(s, Question(t))
    ensures Inv(Apply(s, Question(t)).session)
  {
    MenuOmitsTracking();
  }

  /** The remaining panel controls keep the invariant. */
  lemma PanelStepKeepsInv(s: Session, a: Action)
    requires Inv(s) && Enabled(s, a)
    requires !(a.Question? || a.AddItem? || a.SetItemQuantity? || a.RemoveItem?)
    ensures Inv(Apply(s, a).session)
  {
    CategoryNamesNonEmpty();
  }

  /** Every state reached from the initial one through rendered controls
      (and ledger operations) keeps the invariant. */
  lemma {:induction false} RunKeepsInv(s: Session, acts: seq<Action>)
    requires Inv(s) && ValidTrace(s, acts)
    ensures Inv(Run(s, acts))
    decreases |acts|
  {
    if |acts| > 0 {
      InvInductive(s, acts[0]);
      RunKeepsInv(Apply(s, acts[0]).session, acts[1..]);
    }
  }

  /** At most one panel is ever shown, and the order-tracking panel never:
      its question is not among the rendered menu buttons. */
  lemma ReachableAtMostOnePanel(acts: seq<Action>)
    requires ValidTrace(Initial, acts)
    ensures AtMostOnePanel(Run(Initial, acts).panel)
    ensures !Run(Initial, acts).panel.showOrderTracking
    ensures ViewOf(Run(Initial, acts)) != OrderTracking
  {
    InitialCartTotals();
    RunKeepsInv(Initial, acts);
  }

  /** Under the invariant the derived view and the flags determine each
      other: each panel is shown exactly when its own flag is set, and the
      menu exactly when no flag is. */
  lemma ViewMatchesFlags(s: Session)
    requires Inv(s)
    ensures ViewOf(s) == ProductGrid <==> s.panel.showProducts
    ensures ViewOf(s) == CategoryGrid <==> s.panel.showCategories
    ensures ViewOf(s).CategoryProductGrid? <==> s.panel.showCategoryProducts
    ensures ViewOf(s).CategoryProductGrid? ==> ViewOf(s).category == s.panel.selectedCategory
    ensures (ViewOf(s) == OrderSummary || ViewOf(s) == EmptyCart) <==> s.panel.showOrderSummary
    ensures ViewOf(s) == Menu <==> FlagCount(s.panel) == 0
  {
  }

  /** Going back is idempotent. */
  lemma BackIdempotent(s: Session)
    ensures HandleBackToQuestions(HandleBackToQuestions(s)) == HandleBackToQuestions(s)
  {
  }

  /** Opening a category from the category grid and going back to the
      categories restores the session, except that the selected category
      is now empty (a stale one left by an earlier product click is gone
      too). */
  lemma CategoryRoundTrip(s: Session, c: Category)
    requires Inv(s) && Enabled(s, PickCategory(c))
    ensures HandleBackToCategories(HandleCategoryClick(s, c)) == s.(panel := s.panel.(selectedCategory := ""))
    ensures ViewOf(HandleCategoryClick(s, c)) == CategoryProductGrid(c.name)
  {
    CategoryNamesNonEmpty();
  }

  /** In every reachable state the confirm button sends the name of one of
      the two offered payment methods, never "undefined". */
  lemma ConfirmNamesOfferedMethod(s: Session)
    requires Inv(s) && Enabled(s, Confirm)
    ensures exists i :: 0 <= i < PaymentChoices &&
              PaymentMethods[i].id == s.panel.selectedPaymentMethod &&
              HandleConfirmOrder(s).effect == Send(ConfirmPrefix + PaymentMethods[i].name)
  {
    var id := s.panel.selectedPaymentMethod;
    assert SelectablePaymentIds() == ["credit_card", "bank_transfer"];
    if id == "credit_card" {
      assert PaymentMethodName(id) == Some(PaymentMethods[0].name);
    } else {
      assert PaymentMethodName(id) == Some(PaymentMethods[1].name);
    }
  }

  /** Confirming keeps the cart and the chosen method: opening the summary
      again shows the same cart with the method still selected. */
  lemma ConfirmThenReorderKeepsSelection(s: Session)
    requires Inv(s) && Enabled(s, Confirm)
    ensures var back := HandleQuestionClick(HandleConfirmOrder(s).session, PlaceOrderText).session;
            ViewOf(back) == OrderSummary && back.cart == s.cart &&
            back.panel.selectedPaymentMethod == s.panel.selectedPaymentMethod
  {
  }
}

=== FILE: product_filter.dfy ===
/** The products page of src/pages/ProductsPage.tsx: the search, filter and
    sort pipeline its effect recomputes from (products, search term,
    filters), the filter reset, and the favourites list. */
module ProductFilter {
  import opened Wrappers
  import opened Text
  import opened Sorting
  import opened Lists
  import opened ProductRecords
  import opened Auth

  /** The category and location choice that matches everything. */
  const All: string := "ทั้งหมด"

  datatype SortKey = ByName | ByPrice | ByRating | ByNewest

  /** The filter panel; the price range is `[minPrice, maxPrice]`. */
  datatype Filters = Filters(
    category: string,
    minPrice: int,
    maxPrice: int,
    location: string,
    organic: bool,
    inStock: bool,
    sortBy: SortKey)

  const InitialFilters: Filters := Filters(All, 0, 1000, All, false, true, ByName)

  /** Some tag contains `needle`, the `tags.some(...)` of the search. */
  predicate SomeTagIncludes(tags: seq<string>, needle: string)
  {
    exists i :: 0 <= i < |tags| && Includes(Lower(tags[i]), needle)
  }

  /** The search stage's test for a non-empty term. */
  predicate MatchesSearch(p: Product, term: string)
  {
    var t := Lower(term);
    Includes(Lower(p.name), t) || Includes(Lower(p.farmer), t) || Includes(Lower(p.category), t)
    || SomeTagIncludes(p.tags, t)
  }

  predicate InPriceRange(p: Product, f: Filters)
  {
    f.minPrice <= p.price <= f.maxPrice
  }

  /** What the whole filter chain asks of one product. */
  predicate Passes(p: Product, f: Filters, term: string)
  {
    && (term == "" || MatchesSearch(p, term))
    && (f.category == All || p.category == f.category)
    && (f.location == All || p.location == f.location)
    && InPriceRange(p, f)
    && (!f.organic || p.organic)
    && (!f.inStock || p.inStock)
  }

  /** The filter stages in the order the effect runs them; a stage whose
      control is at its neutral value is skipped. */
  function FilterStages(products: seq<Product>, f: Filters, term: string): (r: seq<Product>)
    ensures |r| <= |products|
    ensures forall p :: p in r ==> p in products
  {
    var s1 := Stage(products, term != "", (p: Product) => MatchesSearch(p, term));
    var s2 := Stage(s1, f.category != All, (p: Product) => p.category == f.category);
    var s3 := Stage(s2, f.location != All, (p: Product) => p.location == f.location);
    var s4 := Keep(s3, (p: Product) => InPriceRange(p, f));
    var s5 := Stage(s4, f.organic, (p: Product) => p.organic);
    Stage(s5, f.inStock, (p: Product) => p.inStock)
  }

  /** The first `n` stages' tests. */
  predicate PassesFirst(p: Product, f: Filters, term: string, n: nat)
  {
    && (n >= 1 ==> term == "" || MatchesSearch(p, term))
    && (n >= 2 ==> f.category == All || p.category == f.category)
    && (n >= 3 ==> f.location == All || p.location == f.location)
    && (n >= 4 ==> InPriceRange(p, f))
    && (n >= 5 ==> !f.organic || p.organic)
    && (n >= 6 ==> !f.inStock || p.inStock)
  }

  /** The comparator of the sort stage, as "may come first": ascending
      price, descending rating, descending id for "newest", and ascending
      name otherwise. */
  function Before(key: SortKey): (Product, Product) -> bool
  {
    match key
    case ByPrice => (a: Product, b: Product) => a.price <= b.price
    case ByRating => (a: Product, b: Product) => a.ratingTenths >= b.ratingTenths
    case ByNewest => (a: Product, b: Product) => a.id >= b.id
    case ByName => (a: Product, b: Product) => LexLe(a.name, b.name)
  }

  /** Every comparator is a total preorder, so the sort is well defined. */
  lemma BeforeTotalPreorder(key: SortKey)
    ensures Total(Before(key)) && Transitive(Before(key))
  {
    if key == ByName {
      forall a: Product, b: Product ensures Before(key)(a, b) || Before(key)(b, a) {
        LexLeTotal(a.name, b.name);
      }
      forall a: Product, b: Product, c: Product | Before(key)(a, b) && Before(key)(b, c)
        ensures Before(key)(a, c)
      {
        LexLeTransitive(a.name, b.name, c.name);
      }
    }
  }

  /** The effect's result: filter, then sort by the chosen key. */
  function ApplyFilters(products: seq<Product>, f: Filters, term: string): (r: seq<Product>)
    ensures |r| <= |products|
  {
    Sort(FilterStages(products, f, term), Before(f.sortBy))
  }

  /** The search and category stages are one filter by the first two
      tests. */
  lemma FirstStages(products: seq<Product>, f: Filters, term: string)
    ensures Stage(Stage(products, term != "", (p: Product) => MatchesSearch(p, term)),
                  f.category != All, (p: Product) => p.category == f.category)
            == Keep(products, (p: Product) => PassesFirst(p, f, term, 2))
  {
    var k0 := (p: Product) => PassesFirst(p, f, term, 0);
    var k1 := (p: Product) => PassesFirst(p, f, term, 1);
    KeepAll(products, k0);
    StageAfterKeep(products, k0, term != "", (p: Product) => MatchesSearch(p, term), k1);
    StageAfterKeep(products, k1, f.category != All, (p: Product) => p.category == f.category,
                   (p: Product) => PassesFirst(p, f, term, 2));
  }

  /** The location and price stages extend that to the first four tests. */
  lemma MiddleStages(products: seq<Product>, f: Filters, term: string)
    ensures Keep(Stage(Keep(products, (p: Product) => PassesFirst(p, f, term, 2)),
                       f.location != All, (p: Product) => p.location == f.location),
                 (p: Product) => InPriceRange(p, f))
            == Keep(products, (p: Product) => PassesFirst(p, f, term, 4))
  {
    var k2 := (p: Product) => PassesFirst(p, f, term, 2);
    var k3 := (p: Product) => PassesFirst(p, f, term, 3);
    StageAfterKeep(products, k2, f.location != All, (p: Product) => p.location == f.location, k3);
    StageAfterKeep(products, k3, true, (p: Product) => InPriceRange(p, f),
                   (p: Product) => PassesFirst(p, f, term, 4));
  }

  /** The organic and in-stock stages complete the chain. */
  lemma LastStages(products: seq<Product>, f: Filters, term: string)
    ensures Stage(Stage(Keep(products, (p: Product) => PassesFirst(p, f, term, 4)),
                        f.organic, (p: Product) => p.organic),
                  f.inStock, (p: Product) => p.inStock)
            == Keep(products, (p: Product) => Passes(p, f, term))
  {
    var k4 := (p: Product) => PassesFirst(p, f, term, 4);
    var k5 := (p: Product) => PassesFirst(p, f, term, 5);
    var k6 := (p: Product) => PassesFirst(p, f, term, 6);
    StageAfterKeep(products, k4, f.organic, (p: Product) => p.organic, k5);
    StageAfterKeep(products, k5, f.inStock, (p: Product) => p.inStock, k6);
    KeepSame(products, k6, (p: Product) => Passes(p, f, term));
  }

  /** Running the stages one by one is the same as one filter by their
      conjunction. */
  lemma FilterStagesIsOneFilter(products: seq<Product>, f: Filters, term: string)
    ensures FilterStages(products, f, term) == Keep(products, (p: Product) => Passes(p, f, term))
  {
    FirstStages(products, f, term);
    MiddleStages(products, f, term);
    LastStages(products, f, term);
  }

  /** The result holds each passing product as often as the input does
      and nothing else: a reordering of a sub-multiset, with no item
      invented or duplicated. */
  lemma ApplyFiltersCounts(products: seq<Product>, f: Filters, term: string)
    ensures forall p :: multiset(ApplyFilters(products, f, term))[p] ==
                          if Passes(p, f, term) then multiset(products)[p] else 0
    ensures multiset(ApplyFilters(products, f, term)) <= multiset(products)
  {
    FilterStagesIsOneFilter(products, f, term);
    forall p ensures multiset(ApplyFilters(products, f, term))[p] ==
                       if Passes(p, f, term) then multiset(products)[p] else 0 {
      KeepCounts(products, (q: Product) => Passes(q, f, term), p);
    }
  }

  /** Every listed product satisfies every active filter, and every
      product that does is listed. */
  lemma ApplyFiltersSoundComplete(products: seq<Product>, f: Filters, term: string)
    ensures forall p :: p in ApplyFilters(products, f, term) <==> p in products && Passes(p, f, term)
    ensures forall p :: p in ApplyFilters(products, f, term) ==>
      && f.minPrice <= p.price <= f.maxPrice
      && (f.category != All ==> p.category == f.category)
      && (f.location != All ==> p.location == f.location)
      && (f.organic ==> p.organic)
      && (f.inStock ==> p.inStock)
  {
    ApplyFiltersCounts(products, f, term);
    forall p ensures p in ApplyFilters(products, f, term) <==> p in products && Passes(p, f, term) {
      assert p in ApplyFilters(products, f, term) <==> p in multiset(ApplyFilters(products, f, term));
      assert p in products <==> p in multiset(products);
    }
  }

  /** The result is ordered by the chosen key. */
  lemma ApplyFiltersSorted(products: seq<Product>, f: Filters, term: string)
    ensures SortedBy(ApplyFilters(products, f, term), Before(f.sortBy))
  {
    BeforeTotalPreorder(f.sortBy);
    SortSorted(FilterStages(products, f, term), Before(f.sortBy));
  }

  /** Products the chosen key cannot tell apart (equal prices, say) keep the
      order in which they passed the filters. */
  lemma ApplyFiltersStable(products: seq<Product>, f: Filters, term: string, e: Product)
    ensures Ties(ApplyFilters(products, f, term), Before(f.sortBy), e) ==
            Ties(Keep(products, (p: Product) => Passes(p, f, term)), Before(f.sortBy), e)
  {
    BeforeTotalPreorder(f.sortBy);
    FilterStagesIsOneFilter(products, f, term);
    SortStable(FilterStages(products, f, term), Before(f.sortBy), e);
  }

  /** A non-empty term selects exactly the products whose lower-cased
      name, farmer, category or some tag contains the lower-cased term. */
  lemma SearchMeaning(p: Product, term: string)
    ensures MatchesSearch(p, term) <==>
      var t := Lower(term);
      || (exists i :: OccursAt(Lower(p.name), t, i))
      || (exists i :: OccursAt(Lower(p.farmer), t, i))
      || (exists i :: OccursAt(Lower(p.category), t, i))
      || (exists k, i :: 0 <= k < |p.tags| && OccursAt(Lower(p.tags[k]), t, i))
  {
    var t := Lower(term);
    IncludesIffOccurs(Lower(p.name), t);
    IncludesIffOccurs(Lower(p.farmer), t);
    IncludesIffOccurs(Lower(p.category), t);
    forall k | 0 <= k < |p.tags| {
      IncludesIffOccurs(Lower(p.tags[k]), t);
    }
  }

  /** `resetFilters`: the initial filters and an empty search term. */
  function ResetFilters(): (r: (Filters, string))
    ensures r.1 == ""
    ensures r.0.category == All && r.0.location == All
    ensures r.0.minPrice == 0 && r.0.maxPrice == 1000
    ensures !r.0.organic && r.0.inStock && r.0.sortBy == ByName
  {
    (InitialFilters, "")
  }

  /** After a reset the page lists exactly the in-stock products priced
      from 0 to 1000, in name order. */
  lemma ResetView(products: seq<Product>)
    ensures var (f, term) := ResetFilters();
      && (forall p :: p in ApplyFilters(products, f, term) <==> p in products && p.inStock && 0 <= p.price <= 1000)
      && SortedBy(ApplyFilters(products, f, term), (a: Product, b: Product) => LexLe(a.name, b.name))
  {
    var (f, term) := ResetFilters();
    ApplyFiltersSoundComplete(products, f, term);
    ApplyFiltersSorted(products, f, term);
  }

  /** Whether the favourite controls act: a signed-in customer. */
  predicate IsCustomer(user: Option<User>)
  {
    user.Some? && user.value.role == Customer
  }

  /** `handleAddToFavorites`: for a customer whose stored favourites
      accepted the name (`stored`), the name is appended; otherwise the
      list is unchanged. */
  function AddFavorite(favorites: seq<string>, user: Option<User>, name: string, stored: bool): (r: seq<string>)
    ensures IsCustomer(user) && stored ==> r == favorites + [name]
    ensures !(IsCustomer(user) && stored) ==> r == favorites
  {
    if !IsCustomer(user) || !stored then favorites else favorites + [name]
  }

  /** `handleRemoveFromFavorites`: for a customer whose stored favourites
      dropped the name, every copy of it goes and the rest keep their
      order. */
  function RemoveFavorite(favorites: seq<string>, user: Option<User>, name: string, stored: bool): (r: seq<string>)
    ensures IsCustomer(user) && stored ==> name !in r
    ensures IsCustomer(user) && stored ==> forall x :: x != name ==> multiset(r)[x] == multiset(favorites)[x]
    ensures !(IsCustomer(user) && stored) ==> r == favorites
  {
    if !IsCustomer(user) || !stored then favorites
    else
      var r := Keep(favorites, (f: string) => f != name);
      assert forall x :: x != name ==> multiset(r)[x] == multiset(favorites)[x] by {
        forall x | x != name ensures multiset(r)[x] == multiset(favorites)[x] {
          KeepCounts(favorites, (f: string) => f != name, x);
        }
      }
      r
  }

  /** The heart button: remove when the name is already a favourite,
      add otherwise. */
  function ToggleFavorite(favorites: seq<string>, user: Option<User>, name: string, stored: bool): (r: seq<string>)
    ensures name in favorites ==> r == RemoveFavorite(favorites, user, name, stored)
    ensures name !in favorites ==> r == AddFavorite(favorites, user, name, stored)
  {
    if name in favorites then RemoveFavorite(favorites, user, name, stored)
    else AddFavorite(favorites, user, name, stored)
  }

  /** Two successful clicks on a product that was not a favourite leave
      the list as it was. */
  lemma ToggleTwiceRestores(favorites: seq<string>, user: Option<User>, name: string)
    requires IsCustomer(user) && name !in favorites
    ensures ToggleFavorite(ToggleFavorite(favorites, user, name, true), user, name, true) == favorites
  {
    var added := favorites + [name];
    assert added[|favorites|] == name;
    KeepAll(favorites, (f: string) => f != name);
    KeepAppendDropped(favorites, name);
  }

  lemma {:induction false} KeepAppendDropped(s: seq<string>, name: string)
    ensures Keep(s + [name], (f: string) => f != name) == Keep(s, (f: string) => f != name)
    decreases |s|
  {
    if |s| > 0 {
      assert (s + [name])[1..] == s[1..] + [name];
      KeepAppendDropped(s[1..], name);
    }
  }
}

=== FILE: product_records.dfy ===
/** The pure conversions of src/services/productService.ts between rows of
    the products table and the front end's product records, and the
    ownership-guarded create, update and delete on a table modelled as a map
    from product id to row. The database calls themselves are not part of
    this model; a failed query is modelled as a missing row. */
module ProductRecords {
  import opened Wrappers
  import opened Text

  /** A row of the products table; every column but the id is nullable.
      The rating column holds tenths of a star. The two timestamp columns
      are not modelled. */
  datatype DbRow = DbRow(
    id: int,
    name: Option<string>,
    price: Option<int>,
    unit: Option<string>,
    tag: Option<string>,
    organic: Option<bool>,
    rating: Option<int>,
    owner: Option<int>,
    category: Option<string>,
    description: Option<string>,
    image: Option<string>,
    stock: Option<int>,
    reviews: Option<int>,
    discount: Option<int>,
    inStock: Option<bool>)

  /** The joined user record of the product's owner. */
  datatype FarmerInfo = FarmerInfo(id: int, name: Option<string>, address: Option<string>)

  /** The front end's product; `ratingTenths` is the rating times ten. */
  datatype Product = Product(
    id: int,
    name: string,
    price: int,
    unit: string,
    image: string,
    farmer: string,
    farmerId: int,
    location: string,
    ratingTenths: int,
    reviews: int,
    inStock: bool,
    category: string,
    description: string,
    organic: bool,
    discount: Option<int>,
    tags: seq<string>,
    stock: int)

  const UnknownFarmer: string := "Unknown Farmer"
  const UnknownLocation: string := "Unknown Location"
  const TagSeparator: char := ','

  /** The rating a new product starts with: 45 tenths, i.e. 4.5 stars. */
  const InitialRatingTenths: int := 45

  const NotFoundForEdit: string := "ไม่พบสินค้าที่ต้องการแก้ไข"
  const NotOwnerForEdit: string := "คุณไม่มีสิทธิ์แก้ไขสินค้านี้"
  const NotFoundForDelete: string := "ไม่พบสินค้าที่ต้องการลบ"
  const NotOwnerForDelete: string := "คุณไม่มีสิทธิ์ลบสินค้านี้"

  // JavaScript's `value || fallback`, per column type: null and the type's
  // falsy value ("", 0, false) give the fallback.

  function StrOr(v: Option<string>, fallback: string): string
  {
    if v.Some? && v.value != "" then v.value else fallback
  }

  function IntOr(v: Option<int>, fallback: int): int
  {
    if v.Some? && v.value != 0 then v.value else fallback
  }

  function BoolOrFalse(v: Option<bool>): bool
  {
    v.Some? && v.value
  }

  function TrimAll(parts: seq<string>): (r: seq<string>)
    ensures |r| == |parts|
    ensures forall i :: 0 <= i < |r| ==> r[i] == Trim(parts[i])
  {
    seq(|parts|, i requires 0 <= i < |parts| => Trim(parts[i]))
  }

  /** The tag column read back: split on commas and trim each piece; null
      or "" gives no tags. */
  function ParseTags(column: Option<string>): (tags: seq<string>)
    ensures column.None? || column.value == "" ==> tags == []
    ensures column.Some? && column.value != "" ==> |tags| >= 1
    ensures forall i :: 0 <= i < |tags| ==> Trimmed(tags[i]) && TagSeparator !in tags[i]
  {
    if column.Some? && column.value != "" then
      var pieces := Split(column.value, TagSeparator);
      var r := TrimAll(pieces);
      assert forall i :: 0 <= i < |r| ==> TagSeparator !in r[i] by {
        forall i | 0 <= i < |r| ensures TagSeparator !in r[i] {
          TrimKeepsOut(pieces[i], TagSeparator);
        }
      }
      r
    else []
  }

  /** The tag column written on create and update: the tags joined with
      commas, or null for an empty list. */
  function StoreTags(tags: seq<string>): (column: Option<string>)
    ensures column.None? <==> |tags| == 0
  {
    if |tags| > 0 then Some(Join(tags, TagSeparator)) else None
  }

  /** The discount column written on create and update: null unless
      positive. */
  function StoreDiscount(discount: int): (column: Option<int>)
    ensures column.Some? <==> discount > 0
    ensures column.Some? ==> column.value == discount
  {
    if discount > 0 then Some(discount) else None
  }

  /** `convertToProduct`: each null column takes its default ("" for text,
      0 for numbers, false for flags, no discount, no tags); a missing or
      empty farmer name or address reads as unknown. */
  function ConvertToProduct(row: DbRow, farmer: FarmerInfo): (p: Product)
    ensures p.id == row.id
    ensures p.name == row.name.GetOr("") && p.unit == row.unit.GetOr("") && p.image == row.image.GetOr("")
    ensures p.category == row.category.GetOr("") && p.description == row.description.GetOr("")
    ensures p.price == row.price.GetOr(0) && p.reviews == row.reviews.GetOr(0) && p.stock == row.stock.GetOr(0)
    ensures p.farmerId == row.owner.GetOr(0)
    ensures p.ratingTenths == row.rating.GetOr(0)
    ensures p.inStock == row.inStock.GetOr(false) && p.organic == row.organic.GetOr(false)
    ensures p.farmer == (if farmer.name.None? || farmer.name.value == "" then UnknownFarmer else farmer.name.value)
    ensures p.location == (if farmer.address.None? || farmer.address.value == "" then UnknownLocation else farmer.address.value)
    ensures p.discount.Some? <==> row.discount.Some? && row.discount.value != 0
    ensures p.discount.Some? ==> p.discount.value == row.discount.value
    ensures p.tags == ParseTags(row.tag)
  {
    Product(
      id := row.id,
      name := StrOr(row.name, ""),
      price := IntOr(row.price, 0),
      unit := StrOr(row.unit, ""),
      image := StrOr(row.image, ""),
      farmer := StrOr(farmer.name, UnknownFarmer),
      farmerId := IntOr(row.owner, 0),
      location := StrOr(farmer.address, UnknownLocation),
      ratingTenths := IntOr(row.rating, 0),
      reviews := IntOr(row.reviews, 0),
      inStock := BoolOrFalse(row.inStock),
      category := StrOr(row.category, ""),
      description := StrOr(row.description, ""),
      organic := BoolOrFalse(row.organic),
      discount := if row.discount.Some? && row.discount.value != 0 then row.discount else None,
      tags := ParseTags(row.tag),
      stock := IntOr(row.stock, 0))
  }

  /** The users table the owner column is joined against. */
  type Users = map<int, FarmerInfo>

  /** The joined owner record: absent when the owner column is null or
      names no user. */
  function OwnerJoin(row: DbRow, users: Users): Option<FarmerInfo>
  {
    if row.owner.Some? && row.owner.value in users then Some(users[row.owner.value]) else None
  }

  /** The error a read of `Name` on a null join throws (V8's wording). */
  const NullOwnerRead: string := "TypeError: Cannot read properties of null (reading 'Name')"

  /** The `products.map(...)` of the `get*` reads: every row is converted
      with its joined owner, and a row without one makes `convertToProduct`
      throw, which the read rethrows, so the whole read fails. */
  function ReadRows(rows: seq<DbRow>, users: Users): (r: Result<seq<Product>, string>)
    ensures r.Success? <==> forall i :: 0 <= i < |rows| ==> OwnerJoin(rows[i], users).Some?
    ensures r.Success? ==> |r.value| == |rows|
    ensures r.Success? ==> forall i :: 0 <= i < |rows| ==>
              r.value[i] == ConvertToProduct(rows[i], OwnerJoin(rows[i], users).value)
    ensures r.Failure? ==> r.error == NullOwnerRead
  {
    if |rows| == 0 then Success([])
    else
      var join := OwnerJoin(rows[0], users);
      if join.None? then Failure(NullOwnerRead)
      else
        match ReadRows(rows[1..], users)
        case Failure(e) => Failure(e)
        case Success(rest) =>
          assert forall i :: 1 <= i < |rows| ==> rows[i] == rows[1..][i - 1];
          Success([ConvertToProduct(rows[0], join.value)] + rest)
  }

  /** A single product with a null owner column fails the whole read. */
  lemma NullOwnerFailsRead(rows: seq<DbRow>, users: Users, i: int)
    requires 0 <= i < |rows| && rows[i].owner.None?
    ensures ReadRows(rows, users) == Failure(NullOwnerRead)
  {
    assert OwnerJoin(rows[i], users).None?;
  }

  /** What a farmer submits to create a product. */
  datatype CreateData = CreateData(
    name: string, price: int, unit: string, category: string, description: string,
    image: string, stock: int, organic: bool, discount: int, tags: seq<string>)

  /** `convertCreateDataToDb`, completed with the id the database assigns
      on insert. */
  function ConvertCreateDataToDb(id: int, farmerId: int, data: CreateData): (row: DbRow)
    ensures row.id == id && row.owner == Some(farmerId)
    ensures row.inStock == Some(data.stock > 0)
    ensures row.rating == Some(InitialRatingTenths) && row.reviews == Some(0)
    ensures row.discount == StoreDiscount(data.discount) && row.tag == StoreTags(data.tags)
  {
    DbRow(
      id := id,
      name := Some(data.name),
      price := Some(data.price),
      unit := Some(data.unit),
      tag := StoreTags(data.tags),
      organic := Some(data.organic),
      rating := Some(InitialRatingTenths),
      owner := Some(farmerId),
      category := Some(data.category),
      description := Some(data.description),
      image := Some(data.image),
      stock := Some(data.stock),
      reviews := Some(0),
      discount := StoreDiscount(data.discount),
      inStock := Some(data.stock > 0))
  }

  /** Creating a product and reading it back returns what was submitted,
      with in-stock derived from the stock, 4.5 stars, no reviews, the
      creating farmer as owner, and the discount only when positive. */
  lemma CreateReadRoundTrip(id: int, farmerId: int, data: CreateData, farmer: FarmerInfo)
    ensures var p := ConvertToProduct(ConvertCreateDataToDb(id, farmerId, data), farmer);
      && p.id == id && p.name == data.name && p.price == data.price && p.unit == data.unit
      && p.category == data.category && p.description == data.description && p.image == data.image
      && p.stock == data.stock && p.organic == data.organic
      && p.inStock == (data.stock > 0) && p.ratingTenths == InitialRatingTenths && p.reviews == 0
      && p.farmerId == farmerId
      && p.discount == (if data.discount > 0 then Some(data.discount) else None)
  {
  }

  /** Tags written and read back come back trimmed, provided none contains
      a comma and the joined text is not empty. */
  lemma TagsRoundTrip(tags: seq<string>)
    requires forall i :: 0 <= i < |tags| ==> TagSeparator !in tags[i]
    requires Join(tags, TagSeparator) != ""
    ensures ParseTags(StoreTags(tags)) == TrimAll(tags)
  {
    assert |tags| > 0;
    SplitJoin(tags, TagSeparator);
  }

  /** In particular, comma-free tags that are already trimmed survive
      unchanged. */
  lemma TrimmedTagsSurvive(tags: seq<string>)
    requires forall i :: 0 <= i < |tags| ==> TagSeparator !in tags[i] && Trimmed(tags[i])
    requires Join(tags, TagSeparator) != ""
    ensures ParseTags(StoreTags(tags)) == tags
  {
    TagsRoundTrip(tags);
  }

  /** The edge the round trip excludes: a single empty tag is stored as ""
      and read back as no tags at all. */
  lemma SingleEmptyTagIsLost()
    ensures StoreTags([""]) == Some("")
    ensures ParseTags(StoreTags([""])) == []
  {
  }

  /** The optional fields of an update; `inStock` may be set explicitly. */
  datatype UpdateData = UpdateData(
    name: Option<string>, price: Option<int>, unit: Option<string>, category: Option<string>,
    description: Option<string>, image: Option<string>, stock: Option<int>, organic: Option<bool>,
    discount: Option<int>, tags: Option<seq<string>>, inStock: Option<bool>)

  function Overwrite<T>(column: Option<T>, supplied: Option<T>): Option<T>
  {
    if supplied.Some? then supplied else column
  }

  /** The row after `updateProduct`'s payload is written: only supplied
      fields change; a supplied stock also sets the in-stock flag, which an
      explicit `inStock` then overrides. */
  function UpdatedRow(row: DbRow, u: UpdateData): (r: DbRow)
    ensures r.id == row.id && r.owner == row.owner
    ensures r.rating == row.rating && r.reviews == row.reviews
    ensures u.name.None? ==> r.name == row.name
    ensures u.name.Some? ==> r.name == u.name
    ensures u.price.None? ==> r.price == row.price
    ensures u.price.Some? ==> r.price == u.price
    ensures u.unit.None? ==> r.unit == row.unit
    ensures u.unit.Some? ==> r.unit == u.unit
    ensures u.category.None? ==> r.category == row.category
    ensures u.category.Some? ==> r.category == u.category
    ensures u.description.None? ==> r.description == row.description
    ensures u.description.Some? ==> r.description == u.description
    ensures u.image.None? ==> r.image == row.image
    ensures u.image.Some? ==> r.image == u.image
    ensures u.organic.None? ==> r.organic == row.organic
    ensures u.organic.Some? ==> r.organic == u.organic
    ensures r.stock == (if u.stock.Some? then u.stock else row.stock)
    ensures r.inStock == (if u.inStock.Some? then u.inStock
                          else if u.stock.Some? then Some(u.stock.value > 0)
                          else row.inStock)
    ensures r.discount == (if u.discount.Some? then StoreDiscount(u.discount.value) else row.discount)
    ensures r.tag == (if u.tags.Some? then StoreTags(u.tags.value) else row.tag)
  {
    var stockFlag := if u.stock.Some? then Some(u.stock.value > 0) else row.inStock;
    row.(
      name := Overwrite(row.name, u.name),
      price := Overwrite(row.price, u.price),
      unit := Overwrite(row.unit, u.unit),
      category := Overwrite(row.category, u.category),
      description := Overwrite(row.description, u.description),
      image := Overwrite(row.image, u.image),
      stock := Overwrite(row.stock, u.stock),
      inStock := Overwrite(stockFlag, u.inStock),
      organic := Overwrite(row.organic, u.organic),
      discount := if u.discount.Some? then StoreDiscount(u.discount.value) else row.discount,
      tag := if u.tags.Some? then StoreTags(u.tags.value) else row.tag)
  }

  /** An update that supplies nothing leaves the row as it was. */
  lemma EmptyUpdateIsNoOp(row: DbRow)
    ensures UpdatedRow(row, UpdateData(None, None, None, None, None, None, None, None, None, None, None)) == row
  {
  }

  /** Writing an update and reading the row back shows every supplied
      field, and keeps every other field as it was read before. */
  lemma UpdateReadBack(row: DbRow, u: UpdateData, farmer: FarmerInfo)
    ensures var before := ConvertToProduct(row, farmer);
      var p := ConvertToProduct(UpdatedRow(row, u), farmer);
      && p.id == before.id && p.farmerId == before.farmerId
      && p.ratingTenths == before.ratingTenths && p.reviews == before.reviews
      && p.farmer == before.farmer && p.location == before.location
      && p.name == (if u.name.Some? then u.name.value else before.name)
      && p.price == (if u.price.Some? then u.price.value else before.price)
      && p.unit == (if u.unit.Some? then u.unit.value else before.unit)
      && p.category == (if u.category.Some? then u.category.value else before.category)
      && p.description == (if u.description.Some? then u.description.value else before.description)
      && p.image == (if u.image.Some? then u.image.value else before.image)
      && p.organic == (if u.organic.Some? then u.organic.value else before.organic)
      && p.stock == (if u.stock.Some? then u.stock.value else before.stock)
      && p.inStock == (if u.inStock.Some? then u.inStock.value
                       else if u.stock.Some? then u.stock.value > 0
                       else before.inStock)
      && p.discount == (if u.discount.None? then before.discount
                        else if u.discount.value > 0 then Some(u.discount.value) else None)
      && p.tags == (if u.tags.Some? then ParseTags(StoreTags(u.tags.value)) else before.tags)
  {
  }

  /** The products table, keyed by product id. */
  type Table = map<int, DbRow>

  /** `updateProduct`: fails when the product is missing or owned by
      someone else; otherwise writes the update and returns the product as
      read back. */
  function UpdateProduct(table: Table, productId: int, farmerId: int, u: UpdateData, farmer: FarmerInfo)
    : (r: Result<(Table, Product), string>)
    ensures productId !in table ==> r == Failure(NotFoundForEdit)
    ensures productId in table && table[productId].owner != Some(farmerId) ==> r == Failure(NotOwnerForEdit)
    ensures r.Success? <==> productId in table && table[productId].owner == Some(farmerId)
    ensures r.Success? ==> r.value.0.Keys == table.Keys
    ensures r.Success? ==> forall k :: k in table && k != productId ==> r.value.0[k] == table[k]
    ensures r.Success? ==> r.value.0[productId] == UpdatedRow(table[productId], u)
    ensures r.Success? ==> r.value.0[productId].owner == Some(farmerId)
    ensures r.Success? ==> r.value.1 == ConvertToProduct(r.value.0[productId], farmer)
  {
    if productId !in table then Failure(NotFoundForEdit)
    else if table[productId].owner != Some(farmerId) then Failure(NotOwnerForEdit)
    else
      var row := UpdatedRow(table[productId], u);
      Success((table[productId := row], ConvertToProduct(row, farmer)))
  }

  /** `deleteProduct`: fails when the product is missing or owned by someone
      else; otherwise removes exactly that row. */
  function DeleteProduct(table: Table, productId: int, farmerId: int): (r: Result<Table, string>)
    ensures productId !in table ==> r == Failure(NotFoundForDelete)
    ensures productId in table && table[productId].owner != Some(farmerId) ==> r == Failure(NotOwnerForDelete)
    ensures r.Success? <==> productId in table && table[productId].owner == Some(farmerId)
    ensures r.Success? ==> r.value.Keys == table.Keys - {productId}
    ensures r.Success? ==> forall k :: k in r.value ==> r.value[k] == table[k]
  {
    if productId !in table then Failure(NotFoundForDelete)
    else if table[productId].owner != Some(farmerId) then Failure(NotOwnerForDelete)
    else Success(table - {productId})
  }

  /** `createProduct`: inserts the converted row under the id the database
      assigns and returns it as read back. */
  function CreateProduct(table: Table, newId: int, farmerId: int, data: CreateData, farmer: FarmerInfo)
    : (r: (Table, Product))
    requires newId !in table
    ensures r.0.Keys == table.Keys + {newId}
    ensures forall k :: k in table ==> r.0[k] == table[k]
    ensures r.0[newId] == ConvertCreateDataToDb(newId, farmerId, data)
    ensures r.0[newId].owner == Some(farmerId)
    ensures r.1 == ConvertToProduct(r.0[newId], farmer)
  {
    var row := ConvertCreateDataToDb(newId, farmerId, data);
    (table[newId := row], ConvertToProduct(row, farmer))
  }

  /** Only the owner can change a product: whoever else tries, the update
      and the delete both fail. */
  lemma OnlyOwnerMayModify(table: Table, productId: int, farmerId: int, u: UpdateData, farmer: FarmerInfo)
    requires productId in table && table[productId].owner != Some(farmerId)
    ensures UpdateProduct(table, productId, farmerId, u, farmer).Failure?
    ensures DeleteProduct(table, productId, farmerId).Failure?
  {
  }

  /** The farmer who creates a product can then update and delete it. */
  lemma CreatorOwnsProduct(table: Table, newId: int, farmerId: int, data: CreateData, farmer: FarmerInfo, u: UpdateData)
    requires newId !in table
    ensures var t := CreateProduct(table, newId, farmerId, data, farmer).0;
            UpdateProduct(t, newId, farmerId, u, farmer).Success? && DeleteProduct(t, newId, farmerId) == Success(table)
  {
    var t := CreateProduct(table, newId, farmerId, data, farmer).0;
    assert t - {newId} == table;
  }
}

=== FILE: sorting.dfy ===
/** A stable insertion sort over an arbitrary "may come before" comparator,
    the shape of JavaScript's `Array.prototype.sort` with a comparator that
    returns `<= 0` when its first argument may stay first. */
module Sorting {

  ghost predicate Total<T(!new)>(before: (T, T) -> bool)
  {
    forall a, b :: before(a, b) || before(b, a)
  }

  ghost predicate Transitive<T(!new)>(before: (T, T) -> bool)
  {
    forall a, b, c :: before(a, b) && before(b, c) ==> before(a, c)
  }

  /** Every element may come before every later one. */
  predicate SortedBy<T>(s: seq<T>, before: (T, T) -> bool)
  {
    forall i, j :: 0 <= i < j < |s| ==> before(s[i], s[j])
  }

  /** Inserts `x` before the first element it may precede. */
  function Insert<T>(x: T, s: seq<T>, before: (T, T) -> bool): (r: seq<T>)
    ensures |r| == |s| + 1
    ensures multiset(r) == multiset(s) + multiset{x}
  {
    if |s| == 0 || before(x, s[0]) then [x] + s
    else
      assert s == [s[0]] + s[1..];
      [s[0]] + Insert(x, s[1..], before)
  }

  function Sort<T>(s: seq<T>, before: (T, T) -> bool): (r: seq<T>)
    ensures |r| == |s|
    ensures multiset(r) == multiset(s)
  {
    if |s| == 0 then []
    else
      assert s == [s[0]] + s[1..];
      Insert(s[0], Sort(s[1..], before), before)
  }

  lemma {:induction false} InsertSorted<T(!new)>(x: T, s: seq<T>, before: (T, T) -> bool)
    requires Total(before) && Transitive(before)
    requires SortedBy(s, before)
    ensures SortedBy(Insert(x, s, before), before)
    decreases |s|
  {
    if |s| == 0 || before(x, s[0]) {
    } else {
      var tail := Insert(x, s[1..], before);
      InsertSorted(x, s[1..], before);
      forall j | 0 <= j < |tail|
        ensures before(s[0], tail[j])
      {
        assert tail[j] in multiset(tail);
        if tail[j] != x {
          assert tail[j] in multiset(s[1..]);
          var k :| 0 <= k < |s[1..]| && s[1..][k] == tail[j];
          assert s[k + 1] == tail[j];
        }
      }
    }
  }

  /** The result of `Sort` is ordered whenever the comparator is a total
      preorder. */
  lemma {:induction false} SortSorted<T(!new)>(s: seq<T>, before: (T, T) -> bool)
    requires Total(before) && Transitive(before)
    ensures SortedBy(Sort(s, before), before)
    decreases |s|
  {
    if |s| > 0 {
      SortSorted(s[1..], before);
      InsertSorted(s[0], Sort(s[1..], before), before);
    }
  }

  /** The elements of `s` that tie with `e` (each may come before the
      other), in their order in `s`. */
  function Ties<T>(s: seq<T>, before: (T, T) -> bool, e: T): (r: seq<T>)
    ensures |r| <= |s|
  {
    if |s| == 0 then []
    else (if before(s[0], e) && before(e, s[0]) then [s[0]] else []) + Ties(s[1..], before, e)
  }

  /** Inserting `x` places it ahead of every element it ties with. */
  lemma {:induction false} InsertTies<T(!new)>(x: T, s: seq<T>, before: (T, T) -> bool, e: T)
    requires Transitive(before)
    ensures Ties(Insert(x, s, before), before, e) ==
            (if before(x, e) && before(e, x) then [x] else []) + Ties(s, before, e)
    decreases |s|
  {
    var r := Insert(x, s, before);
    if |s| == 0 || before(x, s[0]) {
      assert r[0] == x && r[1..] == s;
    } else {
      var tail := Insert(x, s[1..], before);
      assert r[0] == s[0] && r[1..] == tail;
      InsertTies(x, s[1..], before, e);
      if before(x, e) && before(e, x) {
        assert !before(e, s[0]);
      }
    }
  }

  /** `Sort` is stable: the elements that tie with any `e` come out in the
      order they went in. */
  lemma {:induction false} SortStable<T(!new)>(s: seq<T>, before: (T, T) -> bool, e: T)
    requires Transitive(before)
    ensures Ties(Sort(s, before), before, e) == Ties(s, before, e)
    decreases |s|
  {
    if |s| > 0 {
      SortStable(s[1..], before, e);
      InsertTies(s[0], Sort(s[1..], before), before, e);
    }
  }

  /** Sorting keeps exactly the elements it was given. */
  lemma SortSameElements<T>(s: seq<T>, before: (T, T) -> bool)
    ensures forall x :: x in Sort(s, before) <==> x in s
  {
    var r := Sort(s, before);
    forall x ensures x in r <==> x in s {
      assert x in r <==> x in multiset(r);
      assert x in s <==> x in multiset(s);
    }
  }
}

=== FILE: text.dfy ===
/** The JavaScript string operations the source leans on, stated over
    `seq<char>`: `includes`, `toLowerCase` (ASCII letters only),
    `localeCompare` (as code-point lexicographic order), `split`, `join`
    and `trim`. */
module Text {

  /** `hay.includes(needle)`, defined by sliding a window along `hay`. */
  predicate Includes(hay: string, needle: string)
    decreases |hay|
  {
    if |needle| == 0 then true
    else if |needle| > |hay| then false
    else if hay[..|needle|] == needle then true
    else Includes(hay[1..], needle)
  }

  /** `needle` occurs in `hay` starting at index `i`. */
  ghost predicate OccursAt(hay: string, needle: string, i: int)
  {
    0 <= i && i + |needle| <= |hay| && hay[i..i + |needle|] == needle
  }

  /** `Includes` agrees with the textbook definition of "is a substring". */
  lemma {:induction false} IncludesIffOccurs(hay: string, needle: string)
    ensures Includes(hay, needle) <==> exists i :: OccursAt(hay, needle, i)
    decreases |hay|
  {
    if |needle| == 0 {
      assert OccursAt(hay, needle, 0);
    } else if |needle| > |hay| {
    } else if hay[..|needle|] == needle {
      assert OccursAt(hay, needle, 0);
    } else {
      IncludesIffOccurs(hay[1..], needle);
      if Includes(hay[1..], needle) {
        var i :| OccursAt(hay[1..], needle, i);
        assert hay[1..][i..i + |needle|] == hay[i + 1..i + 1 + |needle|];
        assert OccursAt(hay, needle, i + 1);
      }
      if exists i :: OccursAt(hay, needle, i) {
        var i :| OccursAt(hay, needle, i);
        assert i != 0;
        assert hay[1..][i - 1..i - 1 + |needle|] == hay[i..i + |needle|];
        assert OccursAt(hay[1..], needle, i - 1);
      }
    }
  }

  /** `toLowerCase` restricted to ASCII: only 'A'..'Z' change. */
  function LowerChar(c: char): char
  {
    if 'A' <= c <= 'Z' then (c as int + 32) as char else c
  }

  predicate IsUpperAscii(c: char)
  {
    'A' <= c <= 'Z'
  }

  function Lower(s: string): (r: string)
    ensures |r| == |s|
    ensures forall i :: 0 <= i < |r| ==> !IsUpperAscii(r[i])
    ensures forall i :: 0 <= i < |s| && !IsUpperAscii(s[i]) ==> r[i] == s[i]
  {
    seq(|s|, i requires 0 <= i < |s| => LowerChar(s[i]))
  }

  /** Lower-casing twice is lower-casing once. */
  lemma LowerIdempotent(s: string)
    ensures Lower(Lower(s)) == Lower(s)
  {
  }

  /** `a` sorts no later than `b` in code-point lexicographic order. */
  predicate LexLe(a: string, b: string)
    decreases |a|
  {
    |a| == 0 || (|b| > 0 && (a[0] < b[0] || (a[0] == b[0] && LexLe(a[1..], b[1..]))))
  }

  lemma {:induction false} LexLeReflexive(a: string)
    ensures LexLe(a, a)
    decreases |a|
  {
    if |a| > 0 {
      LexLeReflexive(a[1..]);
    }
  }

  lemma {:induction false} LexLeTotal(a: string, b: string)
    ensures LexLe(a, b) || LexLe(b, a)
    decreases |a|
  {
    if |a| > 0 && |b| > 0 && a[0] == b[0] {
      LexLeTotal(a[1..], b[1..]);
    }
  }

  lemma {:induction false} LexLeTransitive(a: string, b: string, c: string)
    requires LexLe(a, b) && LexLe(b, c)
    ensures LexLe(a, c)
    decreases |a|
  {
    if |a| > 0 && a[0] == b[0] && b[0] == c[0] {
      LexLeTransitive(a[1..], b[1..], c[1..]);
    }
  }

  lemma {:induction false} LexLeAntisymmetric(a: string, b: string)
    requires LexLe(a, b) && LexLe(b, a)
    ensures a == b
    decreases |a|
  {
    if |a| > 0 {
      LexLeAntisymmetric(a[1..], b[1..]);
      assert a == [a[0]] + a[1..];
      assert b == [b[0]] + b[1..];
    }
  }

  /** `s.split(d)`: the maximal `d`-free pieces between separators; a string
      with `k` separators yields `k + 1` pieces, and "" yields [""]. */
  function Split(s: string, d: char): (parts: seq<string>)
    ensures |parts| >= 1
    ensures forall i :: 0 <= i < |parts| ==> d !in parts[i]
    decreases |s|
  {
    if |s| == 0 then [""]
    else
      var rest := Split(s[1..], d);
      if s[0] == d then [""] + rest
      else [[s[0]] + rest[0]] + rest[1..]
  }

  /** `parts.join(d)`. */
  function Join(parts: seq<string>, d: char): string
  {
    if |parts| == 0 then ""
    else if |parts| == 1 then parts[0]
    else parts[0] + [d] + Join(parts[1..], d)
  }

  /** Joining the pieces of a split gives back the original string. */
  lemma {:induction false} JoinSplit(s: string, d: char)
    ensures Join(Split(s, d), d) == s
    decreases |s|
  {
    if |s| > 0 {
      JoinSplit(s[1..], d);
      var rest := Split(s[1..], d);
      if s[0] == d {
        assert Split(s, d) == [""] + rest;
        assert ([""] + rest)[1..] == rest;
      } else {
        var parts := Split(s, d);
        assert parts[0] == [s[0]] + rest[0];
        if |rest| > 1 {
          assert parts[1..] == rest[1..];
          assert Join(rest, d) == rest[0] + [d] + Join(rest[1..], d);
        }
      }
      assert s == [s[0]] + s[1..];
    }
  }

  /** Splitting a string that starts with a separator-free piece `p`. */
  lemma {:induction false} SplitFreePrefix(p: string, t: string, d: char)
    requires d !in p
    ensures Split(p + t, d) == [p + Split(t, d)[0]] + Split(t, d)[1..]
    decreases |p|
  {
    if |p| > 0 {
      SplitFreePrefix(p[1..], t, d);
      var T := Split(t, d);
      assert (p + t)[1..] == p[1..] + t;
      assert (p + t)[0] == p[0] && p[0] != d;
      var rest := Split(p[1..] + t, d);
      assert rest == [p[1..] + T[0]] + T[1..];
      assert rest[0] == p[1..] + T[0] && rest[1..] == T[1..];
      assert Split(p + t, d) == [[p[0]] + rest[0]] + rest[1..];
      assert [p[0]] + (p[1..] + T[0]) == p + T[0];
    } else {
      assert p + t == t;
      assert p + Split(t, d)[0] == Split(t, d)[0];
      assert Split(t, d) == [Split(t, d)[0]] + Split(t, d)[1..];
    }
  }

  /** Splitting a join of separator-free pieces recovers the pieces. */
  lemma {:induction false} SplitJoin(parts: seq<string>, d: char)
    requires |parts| >= 1
    requires forall i :: 0 <= i < |parts| ==> d !in parts[i]
    ensures Split(Join(parts, d), d) == parts
    decreases |parts|
  {
    if |parts| == 1 {
      SplitFreePrefix(parts[0], "", d);
      assert parts[0] + "" == parts[0];
    } else {
      var tail := Join(parts[1..], d);
      SplitJoin(parts[1..], d);
      SplitFreePrefix(parts[0], [d] + tail, d);
      assert parts[0] + [d] + tail == parts[0] + ([d] + tail);
      var back := Split([d] + tail, d);
      assert ([d] + tail)[1..] == tail;
      assert back == [""] + Split(tail, d);
      assert back[0] == "" && back[1..] == parts[1..];
      assert parts[0] + back[0] == parts[0];
      assert parts == [parts[0]] + parts[1..];
    }
  }

  /** ECMAScript WhiteSpace and LineTerminator code points, the set that
      `String.prototype.trim` strips. */
  predicate IsSpace(c: char)
  {
    || c == '\t' || c == '\n' || c == '\U{000B}' || c == '\U{000C}' || c == '\r' || c == ' '
    || c == '\U{00A0}' || c == '\U{1680}' || ('\U{2000}' <= c <= '\U{200A}')
    || c == '\U{2028}' || c == '\U{2029}' || c == '\U{202F}' || c == '\U{205F}'
    || c == '\U{3000}' || c == '\U{FEFF}'
  }

  /** Neither end of `s` is white space. */
  predicate Trimmed(s: string)
  {
    |s| == 0 || (!IsSpace(s[0]) && !IsSpace(s[|s| - 1]))
  }

  function TrimStart(s: string): (r: string)
    ensures |r| <= |s| && r == s[|s| - |r|..]
    ensures forall i :: 0 <= i < |s| - |r| ==> IsSpace(s[i])
    ensures |r| == 0 || !IsSpace(r[0])
    decreases |s|
  {
    if |s| > 0 && IsSpace(s[0]) then TrimStart(s[1..]) else s
  }

  function TrimEnd(s: string): (r: string)
    ensures |r| <= |s| && r == s[..|r|]
    ensures forall i :: |r| <= i < |s| ==> IsSpace(s[i])
    ensures |r| == 0 || !IsSpace(r[|r| - 1])
    decreases |s|
  {
    if |s| > 0 && IsSpace(s[|s| - 1]) then TrimEnd(s[..|s| - 1]) else s
  }

  /** `r` is `s` with only white space cut off before index `i` and after
      `i + |r|`. */
  ghost predicate StripsSpace(s: string, r: string, i: int)
  {
    && OccursAt(s, r, i)
    && (forall k :: 0 <= k < i ==> IsSpace(s[k]))
    && (forall k :: i + |r| <= k < |s| ==> IsSpace(s[k]))
  }

  /** `s.trim()`: the slice of `s` left after stripping white space from
      both ends. */
  function Trim(s: string): (r: string)
    ensures Trimmed(r)
    ensures exists i :: StripsSpace(s, r, i)
    ensures Trimmed(s) ==> r == s
  {
    var a := TrimStart(s);
    var r := TrimEnd(a);
    StripBoth(s, a, r);
    assert |r| > 0 ==> r[0] == a[0];
    r
  }

  /** Stripping white space from the front and then from the back cuts
      only white space. */
  lemma StripBoth(s: string, a: string, r: string)
    requires |a| <= |s| && a == s[|s| - |a|..]
    requires |r| <= |a| && r == a[..|r|]
    requires forall k :: 0 <= k < |s| - |a| ==> IsSpace(s[k])
    requires forall k :: |r| <= k < |a| ==> IsSpace(a[k])
    ensures StripsSpace(s, r, |s| - |a|)
  {
    var i := |s| - |a|;
    assert s[i..i + |r|] == r;
    forall k | i + |r| <= k < |s| ensures IsSpace(s[k]) {
      assert s[k] == a[k - i];
    }
  }

  /** Trimming removes characters and adds none. */
  lemma TrimKeepsOut(s: string, c: char)
    requires c !in s
    ensures c !in Trim(s)
  {
    var r := Trim(s);
    var j :| StripsSpace(s, r, j);
    forall k | 0 <= k < |r| ensures r[k] != c {
      assert r[k] == s[j + k];
    }
  }

  /** Trimming is idempotent. */
  lemma TrimIdempotent(s: string)
    ensures Trim(Trim(s)) == Trim(s)
  {
  }
}

=== FILE: wrappers.dfy ===
/** Failure-compatible wrappers used across the model: `Option` for the
    source's `null`/`undefined` values and `Result` for thrown errors. */
module Wrappers {

  datatype Option<+T> = None | Some(value: T) {

    /** The wrapped value, or `default` when absent. */
    function GetOr(default: T): T {
      match this
      case Some(v) => v
      case None => default
    }
  }

  datatype Result<+R, +E> = Success(value: R) | Failure(error: E) {

    predicate IsFailure() {
      Failure?
    }

    function PropagateFailure<U>(): Result<U, E>
      requires Failure?
    {
      Failure(error)
    }

    function Extract(): R
      requires Success?
    {
      value
    }
  }
}
